=== FILE: README.md ===
# VIC forcing and snow bookkeeping, modelled in Dafny

This project models three routines of the VIC hydrology model over exact real
arithmetic and proves properties about them:

- `hermite`, `hermint` and `HourlyT` (calc_air_temperature.c). These
  disaggregate three days of daily minimum and maximum air temperature into
  HOURSPERDAY values for the middle day. The method is a piecewise cubic
  Hermite spline whose knots sit at the hours of the minima and maxima. Every
  knot has slope zero.
- `calc_long_shortwave` (calc_long_shortwave.c). It works out incoming
  shortwave, longwave and cloud cover for one time step.
  - Three flags choose what happens: estimate shortwave from cloud cover,
    derive cloud cover from measured shortwave, or take the night branch.
  - Any other daytime combination is the fatal error path.
  - The C static `last_tskc` carries the most recently derived cloud cover from
    one call to the next. Here it is explicit state (`CloudMemory`), passed in
    and returned.
- `snow_melt` (snow_melt.c), the mass and cold-content bookkeeping of the
  two-layer snow pack, taking the energy balance as given. The steps are:
  - rebuild the surface layer and the pack from the stored totals;
  - distribute the snowfall;
  - refreeze or melt at the surface, clamping the vapour flux;
  - spill liquid water above the holding capacity;
  - refreeze in the pack;
  - rebalance the two layers.

Modules:

| file | module | contents |
|---|---|---|
| results.dfy | `Results` | the `Result` type used for the source's fatal paths |
| real_arith.dfy | `RealArith` | absolute value, minimum, maximum and sign facts about products of reals, shared by the other modules |
| hermite_spline.dfy | `HermiteSpline` | `hermite` and `hermint`, with an interpolation and shape theory |
| hourly_temperature.dfy | `HourlyTemperature` | `HourlyT`, built on `HermiteSpline` |
| long_shortwave.dfy | `LongShortwave` | `calc_long_shortwave` and runs of successive calls |
| snow_melt.dfy | `SnowMelt` | `snow_melt` |

How the model treats the source:

- The C computes in double precision. The model uses `real`.
- Fatal paths become a `Failure`:
  - the `nrerror` call of calc_long_shortwave.c;
  - the root finder's failure value, at or below which snow_melt.c calls `vicerror`.
- Two adjacent knots at the same time are not fatal in the source. hermite
  divides by that segment's zero `dx` (calc_air_temperature.c:30-33), so only
  that segment's `yc3`/`yc4` are non-finite. hermint's search never selects an
  interior segment of zero width, because its bracket `x[k] <= xbar < x[k+1]`
  cannot hold there. So HourlyT's values stay finite, except for a query that
  falls on a zero-width first segment (before the second knot) or last
  segment (at or after the fifth knot). The model has no non-finite values.
  It reports every such call as `Failure(CoincidentKnots)`.
- The C math library (`cos`, `sin`, `asin`, `pow`, `exp`, `log10`, `sqrt`) is
  a record of functions, `MathLib`. A predicate, `Lawful`, grants it only:
  - cosine lies in [-1, 1];
  - `exp` is positive;
  - `sqrt` of a non-negative number is a non-negative square root.
- `pow(x, 4.0)` is written as the exact fourth power.
- The vicNl.h constants and `WaterDensity` are parameters. Only their
  positivity is assumed.

Main results:

- `hermite` fits the Hermite end conditions on every segment.
- `hermint`'s binary search finds the segment that brackets the query.
  Outside the knots it extrapolates from the first or last segment.
- The interpolant passes through every knot, the last one included.
- With zero knot slopes, each segment is `y0 + (y1 - y0)(3u^2 - 2u^3)`.
  So the spline is monotone between adjacent knots and never leaves their
  range. As a result, `HourlyT` stays between the coldest and warmest input
  extreme across the knot range.
- The model's `HourlyT` succeeds exactly when no two adjacent knot times
  coincide. For a day whose minimum and maximum share an hour, the model
  reports `Failure(CoincidentKnots)`, where the source returns values.
- `calc_long_shortwave` fails exactly in the daytime cases the source rejects.
  Its cloud cover is kept, recalled from `last_tskc`, or derived. Only a
  derivation writes `last_tskc`.
- The source's two hour-angle formulas differ by one full turn. So for a
  cosine of period 2π they give the same solar altitude.
- `snow_melt` closes its mass balance exactly in real arithmetic. On every
  call that does not fail, with positive vicNl.h constants, a positive
  `WaterDensity` and a positive time step, the reported mass-balance error is
  0.
- `snow_melt`'s layer rebalancing (snow_melt.c:404-405) reduces the pack's
  cold content before computing the surface's share from it. So the total cold
  content changes by exactly `-PackCC * f^2`, where `f` is the fraction of the
  pack moved. The model keeps this order as written. `ShiftLayersConserving`
  is the conserving alternative, and the two agree only when `PackCC == 0`.

## Model

| member | source | states |
|---|---|---|
| HermiteSpline.SegmentCoefficients | calc_air_temperature.c:29-33 | for a segment of non-zero width h, the yc3/yc4 that hermite computes make the cubic start at (y0, d0) and end at (y1, d1) at offset h |
| HermiteSpline.IncreasingHasDistinctSteps | calc_air_temperature.c:29-33 | strictly increasing knot times give every segment a non-zero width, which is what the divisions by dx need |
| HermiteSpline.Hermite | calc_air_temperature.c:16-35 | with non-zero segment widths, the new yc3/yc4 satisfy the Hermite end conditions on every segment (continuity of value and slope); the last entries of yc3/yc4 are left as they were; x, yc1 and yc2 are only read |
| HermiteSpline.Search | calc_air_temperature.c:49-55 | the bisection loop from (klo, khi) stops at a klo inside the bracket, below khi, with x[klo] <= xbar unless klo is the start and xbar < x[klo+1] unless klo+1 is the upper end |
| HermiteSpline.Locate | calc_air_temperature.c:49-55 | the segment hermint uses: an index of a segment (<= n-2 when n >= 2) with x[k] <= xbar unless k == 0, and xbar < x[k+1] unless k+1 is the last knot |
| HermiteSpline.Hermint | calc_air_temperature.c:42-60 | hermint's value: the Horner cubic of the segment Locate finds; a query exactly at that segment's left knot returns the knot's value |
| HermiteSpline.HermintLoop | calc_air_temperature.c:42-60 | the source's while loop (with khi - klo > 1 and the midpoint shift) ends at the segment Locate describes and returns the Horner value of that segment's cubic |
| HermiteSpline.LocateCharacterisation | calc_air_temperature.c:49-55 | with strictly increasing knots, k is the located segment if and only if x[k] <= xbar (or k == 0) and xbar < x[k+1] (or k == n-2) |
| HermiteSpline.LocateOutsideKnots | calc_air_temperature.c:49-58 | a query before the first knot is evaluated on segment 0, and a query at or after the last knot on segment n-2 (extrapolation, not an error) |
| HermiteSpline.LocateSkipsInteriorTie | calc_air_temperature.c:49-55 | the bisection never ends on an interior segment whose two knots share a time, whatever the query |
| HermiteSpline.LocateBrackets | calc_air_temperature.c:49-55 | a query between the first and last knot lies within its segment's two knot times |
| HermiteSpline.HermintAtKnot | calc_air_temperature.c:51-58 | for fitted coefficients and increasing knots, hermint at every knot time, the last knot included, returns that knot's value, and the interpolant's slope there is the knot's slope |
| HermiteSpline.FittedSegment | calc_air_temperature.c:29-33 | on a fitted spline each segment's cubic ends at its right knot's value and slope |
| HermiteSpline.SmoothStepBounds | calc_air_temperature.c:108-114 | the zero-slope blending 3u^2 - 2u^3 stays in [0, 1] for u in [0, 1] |
| HermiteSpline.SmoothStepMonotone | calc_air_temperature.c:108-114 | the blending 3u^2 - 2u^3 is non-decreasing on [0, 1] |
| HermiteSpline.FlatSegmentForm | calc_air_temperature.c:29-33 | a segment fitted with both end slopes zero is y0 + (y1 - y0) * (3u^2 - 2u^3) with u = t / h |
| HermiteSpline.FlatSegmentBetween | calc_air_temperature.c:108-114 | a zero-slope segment never leaves the interval between its two end values |
| HermiteSpline.FlatSegmentMonotone | calc_air_temperature.c:108-114 | a zero-slope segment is monotone in the direction from its left to its right value |
| HermiteSpline.FlatHermintBetweenKnots | calc_air_temperature.c:108-118 | with all knot slopes zero, hermint at any time inside the knot range lies between the values of the two knots that bracket it (the extrema are preserved) |
| HermiteSpline.FlatHermintMonotone | calc_air_temperature.c:108-118 | with all knot slopes zero, hermint is monotone on each segment, rising when the right knot is higher and falling when it is lower |
| HourlyTemperature.TruncateToInt | calc_air_temperature.c:89 | the double-to-int conversion rounds toward zero: n <= r < n + 1 for r >= 0 and n - 1 < r <= n for r < 0 |
| HourlyTemperature.HalfStepRoundsTowardZero | calc_air_temperature.c:89 | hour = 0.5 * Dt stored in an int is Dt / 2 rounded toward zero, for odd and negative Dt as well |
| HourlyTemperature.Knots | calc_air_temperature.c:89-101 | day i contributes knots 2i and 2i+1, at its min and max hour plus trunc(0.5 * Dt) + 24 i with the earlier hour first and on a tie the maximum first, carrying Tmin and Tmax |
| HourlyTemperature.DiurnalSpline | calc_air_temperature.c:108-114 | the spline HourlyT builds is well formed, has six knots, zero slopes and coefficients that satisfy the Hermite end conditions |
| HourlyTemperature.HourlyT | calc_air_temperature.c:65-132 | succeeds exactly when no two adjacent knot times coincide (otherwise hermite divides by zero on that segment, and the model reports a failure); then returns HOURSPERDAY values whatever Dt is, value i being hermint at trunc(0.5 * Dt + HOURSPERDAY) + i * Dt |
| HourlyTemperature.KnotTimesIncrease | calc_air_temperature.c:89-101 | if every day's two hours are distinct and lie in [0, HOURSPERDAY), the six knot times strictly increase and HourlyT succeeds |
| HourlyTemperature.KnotsWithinDay | calc_air_temperature.c:89-101 | a day with distinct hours puts its earlier knot strictly before its later one |
| HourlyTemperature.KnotsAcrossDays | calc_air_temperature.c:89-101 | with hours inside the day, the later knot of day i lies strictly before the earlier knot of day i + 1, since the offset grows by HOURSPERDAY |
| HourlyTemperature.TiedHoursFail | calc_air_temperature.c:96-101 | a day whose min and max hours are equal puts two knots at the same time, and the model reports `Failure(CoincidentKnots)` (the source carries on; see Left out) |
| HourlyTemperature.HourlyTAtKnot | calc_air_temperature.c:117-118 | a period whose query time equals a knot time reproduces that knot's temperature |
| HourlyTemperature.HourlyTAtExtremes | calc_air_temperature.c:89-118 | a period sampled exactly at a day's min (max) hour returns that day's Tmin (Tmax) |
| HourlyTemperature.HourlyTAtMinimum | calc_air_temperature.c:89-118 | with valid hours, a period sampled at day i's minimum hour (plus that day's offset) returns that day's Tmin |
| HourlyTemperature.HourlyTAtMaximum | calc_air_temperature.c:89-118 | with valid hours, a period sampled at day i's maximum hour (plus that day's offset) returns that day's Tmax |
| HourlyTemperature.KnotValuesWithinExtremes | calc_air_temperature.c:89-101 | every knot value is one of the six input extremes, so it lies between the coldest and the warmest |
| HourlyTemperature.HourlyTWithinExtremes | calc_air_temperature.c:108-118 | every period sampled inside the knot range stays between the coldest and the warmest input extreme |
| HourlyTemperature.HourlyStepInsideKnots | calc_air_temperature.c:117 | with Dt = 1 the query time of period p is HOURSPERDAY + p, which lies inside the knot range |
| HourlyTemperature.PatternDays | calc_air_temperature.c:89-101 | three days with minimum at hour 6 and maximum at hour 18 have valid hours |
| HourlyTemperature.PatternKnots | calc_air_temperature.c:89-101 | for those days with Dt = 1 the knots are at hours 6, 18, 30, 42, 54, 66 with values lo, hi, lo, hi, lo, hi |
| HourlyTemperature.PatternExtremes | calc_air_temperature.c:117-118 | for those days the middle day's hour 6 is lo and hour 18 is hi |
| HourlyTemperature.PatternRange | calc_air_temperature.c:108-118 | for those days every hour of the middle day lies in [lo, hi] |
| HourlyTemperature.PatternSample | calc_air_temperature.c:117-118 | for those days period p is the spline at hour 24 + p |
| HourlyTemperature.PatternRises | calc_air_temperature.c:108-118 | for those days the middle day warms monotonically from hour 6 to hour 18 |
| HourlyTemperature.PatternRisesBeforeMaximum | calc_air_temperature.c:108-118 | for those days the temperature does not fall between two hours in [6, 18) |
| HourlyTemperature.PatternBelowMaximum | calc_air_temperature.c:108-118 | for those days no hour of the middle day is warmer than hour 18 |
| HourlyTemperature.PatternFallsAfterMaximum | calc_air_temperature.c:108-118 | for those days the middle day cools monotonically from hour 18 to hour 23 |
| HourlyTemperature.PatternFallsBeforeMinimum | calc_air_temperature.c:108-118 | for those days the middle day cools monotonically from hour 0 to hour 6 |
| HourlyTemperature.PatternFallsToMinimum | calc_air_temperature.c:108-118 | for those days the temperature does not rise between two hours in [0, 6) |
| HourlyTemperature.PatternAboveMinimum | calc_air_temperature.c:108-118 | for those days no hour of the middle day is colder than hour 6 |
| HourlyTemperature.PatternFallingSegment | calc_air_temperature.c:108-118 | for those days the spline is non-increasing from hour 18 to hour 30 and from hour 42 to hour 54 |
| HourlyTemperature.PatternRisingSegment | calc_air_temperature.c:108-118 | for those days the spline is non-decreasing from hour 30 to hour 42 |
| LongShortwave.TimeZoneSign | calc_long_shortwave.c:59-60 | i_var is +1 exactly when theta_l >= 0, else -1 |
| LongShortwave.HourAngle | calc_long_shortwave.c:62-69 | tau takes the hour-12 formula exactly when the hour lies in the after-noon window or before the zero-hour bound, else the hour+12 formula, which is one turn (360 degrees) more |
| LongShortwave.SunDistance | calc_long_shortwave.c:72 | the relative earth-sun distance lies in [0.983, 1.017] |
| LongShortwave.SolarPosition | calc_long_shortwave.c:55-73 | I0 is positive exactly when sin_alpha is, and then at most 1353 sin_alpha / 0.983^2 |
| LongShortwave.IrradianceSign | calc_long_shortwave.c:73 | dividing by the radius twice keeps the sign of 1353 sin_alpha |
| LongShortwave.Irradiance | calc_long_shortwave.c:73 | I0 is at most 1353 sin_alpha / 0.983^2 in daytime |
| LongShortwave.ClearSky | calc_long_shortwave.c:77-78 | the clear-sky irradiance Ic is positive whenever I0 is |
| LongShortwave.ShortwaveFromCloud | calc_long_shortwave.c:83-87 | the estimated shortwave is never negative, never above Ic, equals Ic for zero cloud cover; for Ic >= 0 it solves sw * 100 == (100 - 0.65 tskc^2) Ic while 0.65 tskc^2 <= 100, and for Ic > 0 it is 0 (clamped) beyond |
| LongShortwave.CloudFromShortwave | calc_long_shortwave.c:98 | the derived cloud cover is positive and solves 0.65 tskc^2 == 1 - shortwave / Ic |
| LongShortwave.MeasuredShortwave | calc_long_shortwave.c:75 | the shortwave every branch starts from is never negative: 0 when shortwave is not measured, otherwise the measured value with negatives reset to 0 |
| LongShortwave.Longwave | calc_long_shortwave.c:88-91 | the longwave formula (the same at lines 100-102, 108-110 and 121-123) is non-negative when the clear-sky emissivity term 0.740 + 0.049 vp is, and positive when that term is positive and air_temp + KELVIN is non-zero |
| LongShortwave.LongwaveSign | calc_long_shortwave.c:88-91 | the sign of the longwave formula follows the sign of its emissivity term, for any cloud cover |
| LongShortwave.CalcLongShortwave | calc_long_shortwave.c:75-124 | fails exactly in daytime with shortwave and longwave both measured or with neither shortwave nor cloud cover; shortwave is never negative and a measured one passes through unless negative; unmeasured shortwave is 0 at night; measured longwave is kept, otherwise it is the longwave of the reported cloud cover; the cloud cover is kept, recalled from last_tskc, or derived, and only a derivation writes last_tskc |
| LongShortwave.EstimateBranch | calc_long_shortwave.c:81-92 | daytime, shortwave not measured, cloud cover given: shortwave is the clamped cloud formula on the clear-sky Ic, at most Ic and equal to it for zero cloud; cloud cover and last_tskc are untouched |
| LongShortwave.SaturatedShortwaveRecalls | calc_long_shortwave.c:104-111 | daytime measured shortwave at or above Ic = I0: the cloud cover is last_tskc, last_tskc is unchanged, and longwave is computed from it |
| LongShortwave.DeriveBranch | calc_long_shortwave.c:94-103 | daytime measured shortwave below Ic = I0: the derived cloud cover is positive, satisfies 0.65 tskc^2 == 1 - shortwave / I0, and becomes last_tskc |
| LongShortwave.NightBranch | calc_long_shortwave.c:117-124 | at night the call succeeds, last_tskc is never written, and measured shortwave without a cloud value takes last_tskc as cloud cover |
| LongShortwave.NightRecallsDerivedCloudCover | calc_long_shortwave.c:42 | a daytime derivation followed by a night call with the same flags reports the derived cloud cover through last_tskc |
| LongShortwave.FirstRecallIsZero | calc_long_shortwave.c:42 | the static starts at 0: before any derivation, a call that falls back on last_tskc (the saturated daytime branch at line 107 or the night branch at line 119) reports cloud cover 0 and leaves last_tskc at 0 |
| LongShortwave.Run | calc_long_shortwave.c:42 | successive calls, each handing its last_tskc to the next, give one radiation triple per step |
| LongShortwave.RunKeepsMemory | calc_long_shortwave.c:94-124 | unless shortwave is measured and longwave is not, no run of calls ever changes last_tskc |
| LongShortwave.RunMemoryTraces | calc_long_shortwave.c:99 | after any run, last_tskc is either its initial value or the cloud cover one of the steps reported |
| LongShortwave.CloudCoverRoundTripOffByTen | calc_long_shortwave.c:83-98 | the estimate formula (which divides tskc^2 by 100) and the derivation formula (which does not) are not inverse: a non-zero cloud cover sent through both comes back as abs(tskc) / 10 |
| LongShortwave.ShortwaveDecreasesWithCloud | calc_long_shortwave.c:83-87 | more cloud (in absolute value) never lets more estimated shortwave through |
| LongShortwave.LongwaveIncreasesWithCloud | calc_long_shortwave.c:88-91 | more cloud never lowers the computed longwave while the clear-sky emissivity term is non-negative |
| LongShortwave.SinAltitudeTurn | calc_long_shortwave.c:70-71 | for a cosine of period 2 PI, adding one turn to tau leaves sin_alpha unchanged |
| LongShortwave.HourAngleBranchIrrelevant | calc_long_shortwave.c:62-71 | for a cosine of period 2 PI, sin_alpha is the same whichever tau formula the east/west test picks |
| SnowMelt.Reconstruct | snow_melt.c:127-140 | the stored totals split into ice = swq - pack_water - surf_water, a surface layer of min(ice, MAX_SURFACE_SWE) and a pack holding the rest (empty exactly when ice fits the surface layer); the layers sum to ice and the total water equivalent is the stored swq |
| SnowMelt.SnowFallColdContent | snow_melt.c:141-144 | new snow arrives at the air temperature, or at 0 C when the air is above freezing: for positive snowfall the layer temperature of its cold content is min(air_temp, 0). There is no cold content above freezing or when no snow falls, and never a positive one when the snowfall is non-negative (a negative snowfall below freezing gives a positive one, in the source as in the model) |
| SnowMelt.DistributeSnowfall | snow_melt.c:146-162 | snowfall adds exactly SnowFall to the two layers' swq and exactly SnowFallCC to their cold contents; the surface layer ends at most MAX_SURFACE_SWE and exactly at it when the snowfall overflows, otherwise the pack is untouched; nothing else changes |
| SnowMelt.DistributionDivisors | snow_melt.c:146-153 | when the overflow branch is taken the snowfall divided by at line 150 is positive, and the surface swq divided by at line 153 is positive whenever that line is reached |
| SnowMelt.Temperature | snow_melt.c:163-170 | a non-empty layer's temperature times CH_ICE times its swq gives back its cold content; an empty layer is at 0 |
| SnowMelt.RefreezeSurfaceWater | snow_melt.c:194-209 | the refrozen water is min(surf_water, RefreezeEnergy * delta_t * SECPHOUR / (Lf * WaterDensity(0))): it never exceeds the energy's amount, and equals that amount unless it empties surf_water. surf_water >= 0 afterwards, and it never grows when it starts non-negative (a negative surf_water is raised to 0, as in the source). The water moves to the surface ice with the total unchanged, and nothing else changes |
| SnowMelt.SnowMeltDepth | snow_melt.c:211-214 | the melt depth is non-negative and carries exactly the absolute refreeze energy over the step as latent heat |
| SnowMelt.SurfaceWaterVapour | snow_melt.c:219-226 | the flux is clamped exactly when it would overdraw surf_water, and then surf_water ends at 0 and the flux is minus its old value; after the exchange surf_water >= 0 and it changed by exactly the (possibly clamped) flux |
| SnowMelt.DistributeMelt | snow_melt.c:228-254 | melt goes into surface liquid water. While it fits in the pack's ice it is taken from the pack alone. Past the pack's ice, the pack's ice and liquid water both join the surface, and the surface layer holds what ice is left. When the melt reaches all the ice, the ice, both layers and both temperatures go to 0 and surf_water gains all the ice. The total is unchanged, the layers still sum to ice, and the cold contents are untouched |
| SnowMelt.MeltingSurface | snow_melt.c:193-255 | the Qnet == 0 branch keeps the layers summing to ice and changes the total water equivalent by exactly the vapour flux it reports, never less than the flux handed to it |
| SnowMelt.SurfaceIceVapour | snow_melt.c:314-326 | the flux is clamped exactly when it would overdraw the surface layer, and then the layer ends at 0 and the flux is minus its old swq; the surface layer never ends below 0; ice changes by exactly the (possibly clamped) flux and still equals the sum of the layers |
| SnowMelt.FreezingSurface | snow_melt.c:258-328 | the Qnet != 0 branch fails exactly when the root finder returns -9998 or less; otherwise all surface liquid water is frozen, the surface takes the root's temperature, and the total changes by exactly the reported vapour flux |
| SnowMelt.Spill | snow_melt.c:333-339 | liquid water above the holding capacity drains: afterwards water <= LIQUID_WATER_CAPACITY * swq, the outflow is non-negative, water plus outflow equals the water before, and nothing drains below capacity (used for the pack at lines 382-388 as well) |
| SnowMelt.RefreezePack | snow_melt.c:351-378 | with re = pack_water * Lf * WaterDensity(pack_temp): if PackCC < -re, all pack water refreezes, and the pack's new cold content CH_ICE * PackSwq * pack_temp is PackCC + re (or pack_temp is 0 for an empty pack). Otherwise the pack ends at 0 C, and the refrozen depth times Lf * WaterDensity(0) is exactly -PackCC. The total is conserved and the layers still sum to ice |
| SnowMelt.Rebalance | snow_melt.c:392-416 | ice is unchanged; with more ice than MAX_SURFACE_SWE the surface ends at exactly MAX_SURFACE_SWE, the layer sum is unchanged, the pack is non-empty and both temperatures agree with the new cold contents; otherwise only the pack's swq, cold content and temperature are zeroed |
| SnowMelt.ShiftLayers | snow_melt.c:396-411 | the transfer sets the surface to MAX_SURFACE_SWE and keeps the layer sum with a non-empty pack; it changes nothing if the surface is already at MAX_SURFACE_SWE and conserves the total cold content when the surface is above it |
| SnowMelt.ShiftColdContentDefect | snow_melt.c:403-405 | topping the surface up from the pack in the source's order changes the total cold content by exactly -PackCC * f^2, with f = (MAX_SURFACE_SWE - SurfaceSwq) / PackSwq |
| SnowMelt.ShiftLayersConserving | snow_melt.c:396-411 | the conserving version of the transfer keeps both the layer sum and the total cold content |
| SnowMelt.ShiftAgreesWithConserving | snow_melt.c:403-405 | the source's order matches the conserving transfer exactly when the pack has no cold content |
| SnowMelt.RebalanceSurvivesNextCall | snow_melt.c:392-416 | with more ice than MAX_SURFACE_SWE, the next call's reconstruction from the stored totals and temperatures recovers the same layer split and the same cold contents |
| SnowMelt.Finish | snow_melt.c:333-435 | from the surface spill to the outputs: the reported mass-balance error is 0, swq equals the initial swq plus precipitation plus vapour minus outflow, the outflow in mm is non-negative, both temperatures are 0 when swq is 0, and the vapour flux is reported with its sign flipped |
| SnowMelt.SnowMeltStep | snow_melt.c:121-435 | one call fails exactly when Qnet != 0 and the root finder returns -9998 or less; otherwise the mass-balance error is 0, the new swq is the old one plus snowfall and rainfall (in m) minus the reported vapour flux and outflow, the outflow is non-negative, and both temperatures are 0 when swq is 0 |

## Left out

- The energy-balance physics is not part of this model: `CalcSnowPackEnergyBalance`, `SnowPackEnergyBalance` and the `root_brent` iteration (snow_melt.c:178-190, 263-298). Their results (Qnet, refreeze energy, vapour fluxes, the surface temperature root) are inputs, `EnergyBalance`.
- `ErrorSnowPackEnergyBalance` and `ErrorPrintSnowPackEnergyBalance` only print to stderr and then end the program. They become `Failure(EnergyBalanceFailure)`.
- `nrerror`'s message in calc_long_shortwave.c is I/O. It becomes `Failure(MissingCloudCover)`.
- snow_melt's pass-through outputs are not modelled: the advection, deltaCC, ground flux, latent and sensible heat, Qnet and refreeze energy written to the `save_*` arguments. The same goes for `melt_energy`, which is never used. None of them takes part in the bookkeeping.
- The diagnostic counters `sum_exceed` and `sum_zero`, and the commented-out warnings, are not modelled. These are calc_long_shortwave.c:126-129 and calc_air_temperature.c:119-124.
- `calloc` and `free` in HourlyT are left out. The arrays are sequences.
- Floating point and its rounding are left out. That includes the `(float)hour` casts in the east/west test (calc_long_shortwave.c:63-65) and the `double` conversion at line 72.
- The values of `cos`, `sin`, `asin`, `pow`, `exp` and `log10` are left out. Only the facts `Lawful` lists are used. The formula for the air mass `m` is carried through symbolically.
- HOURSPERDAY is a parameter (`hoursPerDay`) and not the constant 24. The day-pattern lemmas instantiate it to 24.
- HourlyTemperature.HourlyT: with two adjacent knots at the same time, the source still returns HOURSPERDAY values. They are finite unless a query lands on a zero-width first or last segment. The model returns `Failure(CoincidentKnots)` instead and states nothing about those values.
- LongShortwave.CloudCoverRoundTripOffByTen: the source promises no round trip between the estimate and derivation formulas. The lemma pins down the actual factor of ten, and there is no inverse property. The estimate also uses the clear-sky Ic, while the derivation uses I0.
- LongShortwave.HourAngleBranchIrrelevant and LongShortwave.SinAltitudeTurn assume a cosine of period 2 PI as a precondition. This is not part of `Lawful`.
- LongShortwave.LongwaveIncreasesWithCloud requires the clear-sky emissivity term `0.740 + 0.049 vp` to be non-negative, because it is a monotonicity fact. The source does not check it.
- LongShortwave.Run: its own contract states only the number of results. The facts about `last_tskc` are in RunKeepsMemory and RunMemoryTraces.
- SnowMelt.SnowMeltStep: the output's liquid water and layer swq are not shown to be non-negative. Nothing in snow_melt.c constrains the incoming record, and negative stored water passes through.
- SnowMelt.SnowMeltStep and the step functions it calls require a positive time step `deltaT`. snow_melt.c divides by `delta_t * SECPHOUR` (line 200) and converts fluxes with it, and does not check it itself. Calls with `delta_t <= 0` are not modelled.
- SnowMelt.Rebalance: when the ice fits the surface layer, the source zeroes `PackSwq` without adding it to `SurfaceSwq`. The layers then no longer sum to `Ice`, which alone goes into `swq`. The contract states exactly that and nothing more.

=== FILE: hermite_spline.dfy ===
/** Piecewise cubic Hermite interpolation: `hermite` computes the per-segment
    coefficients, `hermint` locates the segment of a query point by binary
    search and evaluates its cubic in Horner form.  Arrays of the source are
    sequences here; yc1 holds the knot values, yc2 the knot slopes and yc3,
    yc4 the two higher-order coefficients of each segment. */
module HermiteSpline {
  import opened RealArith

  /** The segment cubic in the Horner form of hermint, at offset t from its left knot. */
  function CubicValue(y: real, d: real, c3: real, c4: real, t: real): real {
    y + t * (d + t * (c3 + t * c4))
  }

  /** Derivative of CubicValue with respect to t. */
  function CubicSlope(d: real, c3: real, c4: real, t: real): real {
    d + t * (2.0 * c3 + 3.0 * t * c4)
  }

  /** The (yc3, yc4) pair that hermite computes for a segment of width h
      joining value y0, slope d0 to value y1, slope d1. */
  function SegmentCoefficients(h: real, y0: real, y1: real, d0: real, d1: real): (c: (real, real))
    requires h != 0.0
    ensures CubicValue(y0, d0, c.0, c.1, 0.0) == y0
    ensures CubicSlope(d0, c.0, c.1, 0.0) == d0
    ensures CubicValue(y0, d0, c.0, c.1, h) == y1
    ensures CubicSlope(d0, c.0, c.1, h) == d1
  {
    var divdf1 := (y1 - y0) / h;
    var divdf3 := d0 + d1 - 2.0 * divdf1;
    var c3 := (divdf1 - d0 - divdf3) / h;
    var c4 := divdf3 / (h * h);
    assert h * divdf1 == y1 - y0;
    assert h * c3 == divdf1 - d0 - divdf3;
    assert h * h * c4 == divdf3;
    assert h * (h * c3) == h * divdf1 - h * d0 - h * divdf3;
    assert h * (h * (h * c4)) == h * divdf3;
    (c3, c4)
  }

  /** Width of segment i, dx in hermite. */
  function Width(x: seq<real>, i: int): real
    requires 0 <= i < |x| - 1
  {
    x[i + 1] - x[i]
  }

  /** Adjacent knot times differ, so no segment has zero width. */
  predicate DistinctSteps(x: seq<real>) {
    forall i | 0 <= i < |x| - 1 :: Width(x, i) != 0.0
  }

  predicate StrictlyIncreasing(x: seq<real>) {
    forall i, j | 0 <= i < j < |x| :: x[i] < x[j]
  }

  /** Knots that increase from each one to the next are strictly increasing throughout. */
  lemma {:induction false} AdjacentIncreasing(x: seq<real>)
    requires forall j | 0 <= j < |x| - 1 :: x[j] < x[j + 1]
    ensures StrictlyIncreasing(x)
  {
    forall a, b | 0 <= a < b < |x|
      ensures x[a] < x[b]
    {
      var c := a + 1;
      while c < b
        invariant a < c <= b && x[a] < x[c]
      {
        c := c + 1;
      }
    }
  }

  /** hermint's search never selects an interior segment of zero width: its
      bracket x[k] <= xbar < x[k + 1] cannot hold there. */
  lemma LocateSkipsInteriorTie(x: seq<real>, xbar: real, k: nat)
    requires 0 < k && k + 2 < |x| && x[k] == x[k + 1]
    ensures Locate(x, xbar) != k
  {
  }

  lemma IncreasingHasDistinctSteps(x: seq<real>)
    requires StrictlyIncreasing(x)
    ensures DistinctSteps(x)
  {
  }

  /** Knots and coefficients as hermint receives them. */
  datatype Spline = Spline(x: seq<real>, yc1: seq<real>, yc2: seq<real>, yc3: seq<real>, yc4: seq<real>)

  /** hermint reads all five arrays at the index it finds, so they share one length n >= 1. */
  predicate WellFormed(s: Spline) {
    && |s.x| >= 1
    && |s.yc1| == |s.x|
    && |s.yc2| == |s.x|
    && |s.yc3| == |s.x|
    && |s.yc4| == |s.x|
  }

  /** The Hermite end conditions: each segment's cubic starts at its left knot
      and ends with the value and slope of its right knot. */
  ghost predicate Fitted(s: Spline)
    requires WellFormed(s)
  {
    forall i | 0 <= i < |s.x| - 1 :: SegmentFits(s, i)
  }

  ghost predicate SegmentFits(s: Spline, i: int)
    requires WellFormed(s) && 0 <= i < |s.x| - 1
  {
    && CubicValue(s.yc1[i], s.yc2[i], s.yc3[i], s.yc4[i], Width(s.x, i)) == s.yc1[i + 1]
    && CubicSlope(s.yc2[i], s.yc3[i], s.yc4[i], Width(s.x, i)) == s.yc2[i + 1]
  }

  /** hermite: fills yc3[0..n-2] and yc4[0..n-2]; the last entries of the
      arrays it is handed are left as they were. */
  function Hermite(x: seq<real>, yc1: seq<real>, yc2: seq<real>, yc3: seq<real>, yc4: seq<real>)
    : (r: (seq<real>, seq<real>))
    requires |x| >= 1 && |yc1| == |x| && |yc2| == |x| && |yc3| == |x| && |yc4| == |x|
    requires DistinctSteps(x)
    ensures |r.0| == |x| && |r.1| == |x|
    ensures Fitted(Spline(x, yc1, yc2, r.0, r.1))
    ensures r.0[|x| - 1] == yc3[|x| - 1] && r.1[|x| - 1] == yc4[|x| - 1]
  {
    var n := |x|;
    var c3 := seq(n, i requires 0 <= i < n =>
      if i < n - 1 then SegmentCoefficients(Width(x, i), yc1[i], yc1[i + 1], yc2[i], yc2[i + 1]).0
      else yc3[i]);
    var c4 := seq(n, i requires 0 <= i < n =>
      if i < n - 1 then SegmentCoefficients(Width(x, i), yc1[i], yc1[i + 1], yc2[i], yc2[i + 1]).1
      else yc4[i]);
    var s := Spline(x, yc1, yc2, c3, c4);
    assert Fitted(s) by {
      forall i | 0 <= i < n - 1
        ensures SegmentFits(s, i)
      {
        var c := SegmentCoefficients(Width(x, i), yc1[i], yc1[i + 1], yc2[i], yc2[i + 1]);
        assert c3[i] == c.0 && c4[i] == c.1;
      }
    }
    (c3, c4)
  }

  /** The loop of hermint from the state (klo, khi): halve the bracket until
      it spans one segment and return its left end. */
  function Search(x: seq<real>, xbar: real, klo: nat, khi: nat): (k: nat)
    requires klo <= khi < |x|
    ensures klo <= k <= khi
    ensures klo < khi ==> k < khi
    ensures k == klo || x[k] <= xbar
    ensures k + 1 < khi ==> xbar < x[k + 1]
    decreases khi - klo
  {
    if khi - klo > 1 then
      var k := (khi + klo) / 2;
      if x[k] > xbar then Search(x, xbar, klo, k) else Search(x, xbar, k, khi)
    else
      klo
  }

  /** Index of the segment hermint evaluates for the query xbar. */
  function Locate(x: seq<real>, xbar: real): (k: nat)
    requires |x| >= 1
    ensures k < |x|
    ensures |x| >= 2 ==> k <= |x| - 2
    ensures k == 0 || x[k] <= xbar
    ensures k + 2 < |x| ==> xbar < x[k + 1]
  {
    Search(x, xbar, 0, |x| - 1)
  }

  /** hermint as a function: the cubic of the located segment at xbar.  At the
      left knot of the segment it locates, it returns that knot's value. */
  function Hermint(s: Spline, xbar: real): (r: real)
    requires WellFormed(s)
    ensures xbar == s.x[Locate(s.x, xbar)] ==> r == s.yc1[Locate(s.x, xbar)]
  {
    var k := Locate(s.x, xbar);
    CubicValue(s.yc1[k], s.yc2[k], s.yc3[k], s.yc4[k], xbar - s.x[k])
  }

  /** Slope of the interpolant hermint evaluates at xbar. */
  ghost function HermintSlope(s: Spline, xbar: real): real
    requires WellFormed(s)
  {
    var k := Locate(s.x, xbar);
    CubicSlope(s.yc2[k], s.yc3[k], s.yc4[k], xbar - s.x[k])
  }

  /** hermint with the while loop of the source. */
  method HermintLoop(s: Spline, xbar: real) returns (r: real, klo: nat)
    requires WellFormed(s)
    ensures klo == Locate(s.x, xbar)
    ensures r == Hermint(s, xbar)
  {
    var n := |s.x|;
    klo := 0;
    var khi := n - 1;
    while khi - klo > 1
      invariant 0 <= klo <= khi < n
      invariant Search(s.x, xbar, klo, khi) == Search(s.x, xbar, 0, n - 1)
      decreases khi - klo
    {
      var k := (khi + klo) / 2;
      if s.x[k] > xbar {
        khi := k;
      } else {
        klo := k;
      }
    }
    r := CubicValue(s.yc1[klo], s.yc2[klo], s.yc3[klo], s.yc4[klo], xbar - s.x[klo]);
  }

  /** With increasing knots the bracket conditions single out one segment, so
      the binary search finds exactly the segment that contains xbar. */
  lemma LocateCharacterisation(x: seq<real>, xbar: real, k: nat)
    requires |x| >= 2 && StrictlyIncreasing(x) && k <= |x| - 2
    ensures Locate(x, xbar) == k <==> (k == 0 || x[k] <= xbar) && (k == |x| - 2 || xbar < x[k + 1])
  {
  }

  /** Queries before the first knot use segment 0, queries at or after the last use segment n-2. */
  lemma LocateOutsideKnots(x: seq<real>, xbar: real)
    requires |x| >= 2 && StrictlyIncreasing(x)
    ensures xbar < x[0] ==> Locate(x, xbar) == 0
    ensures x[|x| - 1] <= xbar ==> Locate(x, xbar) == |x| - 2
  {
    if xbar < x[0] {
      LocateCharacterisation(x, xbar, 0);
    }
    if x[|x| - 1] <= xbar {
      LocateCharacterisation(x, xbar, |x| - 2);
    }
  }

  /** Between the first and last knot, the located segment contains xbar. */
  lemma LocateBrackets(x: seq<real>, xbar: real)
    requires |x| >= 2 && StrictlyIncreasing(x) && x[0] <= xbar <= x[|x| - 1]
    ensures x[Locate(x, xbar)] <= xbar <= x[Locate(x, xbar) + 1]
  {
  }

  /** The interpolant passes through every knot, the last one included
      (reached through segment n-2), with the knot's slope. */
  lemma {:induction false} HermintAtKnot(s: Spline, k: nat)
    requires WellFormed(s) && |s.x| >= 2 && StrictlyIncreasing(s.x) && Fitted(s)
    requires k < |s.x|
    ensures Hermint(s, s.x[k]) == s.yc1[k]
    ensures HermintSlope(s, s.x[k]) == s.yc2[k]
  {
    var n := |s.x|;
    if k < n - 1 {
      LocateCharacterisation(s.x, s.x[k], k);
      CubicAtOrigin(s.yc1[k], s.yc2[k], s.yc3[k], s.yc4[k]);
    } else {
      LocateCharacterisation(s.x, s.x[k], n - 2);
      assert Locate(s.x, s.x[k]) == n - 2;
      FittedSegment(s, n - 2);
    }
  }

  lemma CubicAtOrigin(y: real, d: real, c3: real, c4: real)
    ensures CubicValue(y, d, c3, c4, 0.0) == y
    ensures CubicSlope(d, c3, c4, 0.0) == d
  {
  }

  /** One instance of the end conditions. */
  lemma FittedSegment(s: Spline, i: nat)
    requires WellFormed(s) && Fitted(s) && i < |s.x| - 1
    ensures CubicValue(s.yc1[i], s.yc2[i], s.yc3[i], s.yc4[i], s.x[i + 1] - s.x[i]) == s.yc1[i + 1]
    ensures CubicSlope(s.yc2[i], s.yc3[i], s.yc4[i], s.x[i + 1] - s.x[i]) == s.yc2[i + 1]
  {
    assert SegmentFits(s, i);
  }


  /** The smooth step 3u^2 - 2u^3 of a zero-slope Hermite segment. */
  function SmoothStep(u: real): real {
    3.0 * u * u - 2.0 * u * u * u
  }

  lemma SmoothStepBounds(u: real)
    requires 0.0 <= u <= 1.0
    ensures 0.0 <= SmoothStep(u) <= 1.0
  {
    var p := u * u;
    var q := (1.0 - u) * (1.0 - u);
    assert SmoothStep(u) == p * (3.0 - 2.0 * u);
    assert 1.0 - SmoothStep(u) == q * (1.0 + 2.0 * u);
    ProductNonNegative(u, u);
    ProductNonNegative(1.0 - u, 1.0 - u);
    ProductNonNegative(p, 3.0 - 2.0 * u);
    ProductNonNegative(q, 1.0 + 2.0 * u);
  }

  /** Multiplying an ordered pair by k keeps the order when k >= 0 and reverses it when k <= 0. */
  lemma ScaleOrder(k: real, a: real, b: real)
    requires a <= b
    ensures 0.0 <= k ==> k * a <= k * b
    ensures k <= 0.0 ==> k * b <= k * a
  {
    if 0.0 <= k {
      ProductNonNegative(k, b - a);
    } else {
      ProductNonNegative(-k, b - a);
    }
  }

  lemma QuotientBounds(a: real, b: real, h: real)
    requires 0.0 < h && 0.0 <= a <= b <= h
    ensures 0.0 <= a / h <= b / h <= 1.0
  {
    QuotientMonotone(0.0, a, h);
    QuotientMonotone(a, b, h);
    QuotientMonotone(b, h, h);
    assert h / h == 1.0;
  }

  lemma QuotientMonotone(a: real, b: real, h: real)
    requires 0.0 < h && a <= b
    ensures 0.0 <= b / h - a / h && b / h - a / h == (b - a) / h
  {
    assert (b / h - a / h) * h == b - a;
  }

  lemma SmoothStepDifference(u: real, v: real)
    ensures SmoothStep(v) - SmoothStep(u)
         == (v - u) * (3.0 * (u + v) - 2.0 * (u * u + u * v + v * v))
  {
    assert v * v - u * u == (v - u) * (u + v);
    assert v * v * v - u * u * u == (v - u) * (u * u + u * v + v * v);
  }

  lemma SmoothStepMonotone(u: real, v: real)
    requires 0.0 <= u <= v <= 1.0
    ensures SmoothStep(u) <= SmoothStep(v)
  {
    var a, b, c := u * u, u * v, v * v;
    ProductNonNegative(u, 1.0 - u);
    ProductNonNegative(v, 1.0 - v);
    ProductNonNegative(u, 1.0 - v);
    ProductNonNegative(v, 1.0 - u);
    assert a <= u && c <= v && b <= u && b <= v;
    var w := 3.0 * (u + v) - 2.0 * (a + b + c);
    assert 0.0 <= w;
    SmoothStepDifference(u, v);
    ProductNonNegative(v - u, w);
  }

  /** A segment whose end slopes are both zero is y0 + (y1 - y0) * SmoothStep(t / h):
      the end conditions alone fix its two higher coefficients. */
  lemma FlatSegmentForm(h: real, y0: real, y1: real, c3: real, c4: real, t: real)
    requires h != 0.0
    requires CubicValue(y0, 0.0, c3, c4, h) == y1
    requires CubicSlope(0.0, c3, c4, h) == 0.0
    ensures CubicValue(y0, 0.0, c3, c4, t) == y0 + (y1 - y0) * SmoothStep(t / h)
  {
    var a := h * h * c3;
    var b := h * h * h * c4;
    assert a + b == y1 - y0;
    assert h * (2.0 * h * c3 + 3.0 * h * h * c4) == 0.0;
    assert 2.0 * a + 3.0 * b == 0.0;
    var u := t / h;
    assert t == u * h;
    assert t * t * c3 == u * u * a;
    assert t * t * t * c4 == u * u * u * b;
    assert CubicValue(y0, 0.0, c3, c4, t) == y0 + t * t * c3 + t * t * t * c4;
  }

  /** All knot slopes are zero. */
  predicate FlatKnots(s: Spline) {
    forall i | 0 <= i < |s.yc2| :: s.yc2[i] == 0.0
  }

  /** One zero-slope segment stays between its end values. */
  lemma FlatSegmentBetween(h: real, y0: real, y1: real, c3: real, c4: real, t: real)
    requires 0.0 < h && 0.0 <= t <= h
    requires CubicValue(y0, 0.0, c3, c4, h) == y1
    requires CubicSlope(0.0, c3, c4, h) == 0.0
    ensures y0 <= y1 ==> y0 <= CubicValue(y0, 0.0, c3, c4, t) <= y1
    ensures y1 <= y0 ==> y1 <= CubicValue(y0, 0.0, c3, c4, t) <= y0
  {
    FlatSegmentForm(h, y0, y1, c3, c4, t);
    var u := t / h;
    QuotientBounds(t, t, h);
    SmoothStepBounds(u);
    BlendBetween(CubicValue(y0, 0.0, c3, c4, t), y0, y1, SmoothStep(u));
  }

  /** v = y0 + (y1 - y0) * e for e in [0, 1] lies between y0 and y1. */
  lemma BlendBetween(v: real, y0: real, y1: real, e: real)
    requires 0.0 <= e <= 1.0 && v == y0 + (y1 - y0) * e
    ensures y0 <= y1 ==> y0 <= v <= y1
    ensures y1 <= y0 ==> y1 <= v <= y0
  {
    var d, p := y1 - y0, (y1 - y0) * e;
    assert d * (1.0 - e) == d - p;
    if 0.0 <= d {
      ProductNonNegative(d, e);
      ProductNonNegative(d, 1.0 - e);
    } else {
      ProductNonNegative(-d, e);
      ProductNonNegative(-d, 1.0 - e);
    }
  }

  /** One zero-slope segment is monotone, in the direction of its end values. */
  lemma FlatSegmentMonotone(h: real, y0: real, y1: real, c3: real, c4: real, ta: real, tb: real)
    requires 0.0 < h && 0.0 <= ta <= tb <= h
    requires CubicValue(y0, 0.0, c3, c4, h) == y1
    requires CubicSlope(0.0, c3, c4, h) == 0.0
    ensures y0 <= y1 ==> CubicValue(y0, 0.0, c3, c4, ta) <= CubicValue(y0, 0.0, c3, c4, tb)
    ensures y1 <= y0 ==> CubicValue(y0, 0.0, c3, c4, tb) <= CubicValue(y0, 0.0, c3, c4, ta)
  {
    FlatSegmentForm(h, y0, y1, c3, c4, ta);
    FlatSegmentForm(h, y0, y1, c3, c4, tb);
    var u, v := ta / h, tb / h;
    QuotientBounds(ta, tb, h);
    SmoothStepMonotone(u, v);
    var eu, ev := SmoothStep(u), SmoothStep(v);
    ScaleOrder(y1 - y0, eu, ev);
  }

  /** Extremum preservation: with zero knot slopes the interpolant never leaves
      the range of the two knots around the query. */
  lemma {:induction false} FlatHermintBetweenKnots(s: Spline, xbar: real)
    requires WellFormed(s) && |s.x| >= 2 && StrictlyIncreasing(s.x) && Fitted(s) && FlatKnots(s)
    requires s.x[0] <= xbar <= s.x[|s.x| - 1]
    ensures var k := Locate(s.x, xbar);
      && (s.yc1[k] <= Hermint(s, xbar) <= s.yc1[k + 1] || s.yc1[k + 1] <= Hermint(s, xbar) <= s.yc1[k])
  {
    var k := Locate(s.x, xbar);
    LocateBrackets(s.x, xbar);
    FittedSegment(s, k);
    assert s.yc2[k] == 0.0 && s.yc2[k + 1] == 0.0;
    FlatSegmentBetween(s.x[k + 1] - s.x[k], s.yc1[k], s.yc1[k + 1], s.yc3[k], s.yc4[k], xbar - s.x[k]);
  }

  /** Shape preservation: with zero knot slopes the interpolant is monotone
      between two consecutive knots, rising when the right knot is higher. */
  lemma {:induction false} FlatHermintMonotone(s: Spline, k: nat, a: real, b: real)
    requires WellFormed(s) && |s.x| >= 2 && StrictlyIncreasing(s.x) && Fitted(s) && FlatKnots(s)
    requires k < |s.x| - 1 && s.x[k] <= a <= b < s.x[k + 1]
    ensures s.yc1[k] <= s.yc1[k + 1] ==> Hermint(s, a) <= Hermint(s, b)
    ensures s.yc1[k + 1] <= s.yc1[k] ==> Hermint(s, b) <= Hermint(s, a)
  {
    LocateCharacterisation(s.x, a, k);
    LocateCharacterisation(s.x, b, k);
    FittedSegment(s, k);
    assert s.yc2[k] == 0.0 && s.yc2[k + 1] == 0.0;
    FlatSegmentMonotone(s.x[k + 1] - s.x[k], s.yc1[k], s.yc1[k + 1], s.yc3[k], s.yc4[k], a - s.x[k], b - s.x[k]);
  }
}

=== FILE: hourly_temperature.dfy ===
/** HourlyT: reconstructs the hourly air temperature of the middle of three
    days from each day's minimum and maximum and the hours at which they
    occur, by a zero-slope Hermite spline through the six extremes. */
module HourlyTemperature {
  import opened Results
  import opened HermiteSpline
  import opened RealArith

  /** One day of input: hour and value of the minimum and of the maximum
      (TminHour[i], Tmin[i], TmaxHour[i], Tmax[i] in the source). */
  datatype DayExtremes = DayExtremes(tminHour: int, tmin: real, tmaxHour: int, tmax: real)

  /** Two knots share a time, so the source's spline divides by zero. */
  datatype HourlyError = CoincidentKnots

  /** C's conversion of a double to int: the fraction is dropped, rounding toward zero. */
  function TruncateToInt(r: real): (n: int)
    ensures 0.0 <= r ==> n as real <= r < n as real + 1.0
    ensures r < 0.0 ==> n as real - 1.0 < r <= n as real
  {
    if r >= 0.0 then r.Floor else -((-r).Floor)
  }

  /** The first value of the int `hour` in HourlyT: 0.5 * Dt truncated. */
  function HalfStep(dt: int): int {
    TruncateToInt(0.5 * dt as real)
  }

  lemma HalfStepRoundsTowardZero(dt: int)
    ensures 0 <= dt ==> HalfStep(dt) == dt / 2
    ensures dt < 0 ==> HalfStep(dt) == -((-dt) / 2)
  {
  }

  /** Offset added to the hours of day i (0 = yesterday, 1 = today, 2 = tomorrow):
      the int `hour` of the first loop, which grows by HOURSPERDAY per day. */
  function DayOffset(hoursPerDay: int, dt: int, i: nat): int {
    if i == 0 then HalfStep(dt) else DayOffset(hoursPerDay, dt, i - 1) + hoursPerDay
  }

  /** Position among the six knots of day i's minimum; the maximum takes the other slot of the pair. */
  function MinSlot(d: DayExtremes, i: nat): nat {
    if d.tminHour < d.tmaxHour then 2 * i else 2 * i + 1
  }

  function MaxSlot(d: DayExtremes, i: nat): nat {
    if d.tminHour < d.tmaxHour then 2 * i + 1 else 2 * i
  }

  /** The two knots of one day, earlier hour first; on a tie the maximum comes first. */
  function DayKnots(d: DayExtremes, offset: int): (k: (seq<real>, seq<real>))
    ensures |k.0| == 2 && |k.1| == 2
    ensures k.0[MinSlot(d, 0)] == (d.tminHour + offset) as real && k.1[MinSlot(d, 0)] == d.tmin
    ensures k.0[MaxSlot(d, 0)] == (d.tmaxHour + offset) as real && k.1[MaxSlot(d, 0)] == d.tmax
    ensures k.0[0] <= k.0[1]
  {
    if d.tminHour < d.tmaxHour then
      ([(d.tminHour + offset) as real, (d.tmaxHour + offset) as real], [d.tmin, d.tmax])
    else
      ([(d.tmaxHour + offset) as real, (d.tminHour + offset) as real], [d.tmax, d.tmin])
  }

  /** The six knot times (x) and temperatures (Tyc1) HourlyT hands to hermite. */
  function Knots(hoursPerDay: int, dt: int, days: seq<DayExtremes>): (k: (seq<real>, seq<real>))
    requires |days| == 3
    ensures |k.0| == 6 && |k.1| == 6
    ensures forall i | 0 <= i < 3 :: Placed(k, days[i], DayOffset(hoursPerDay, dt, i), i)
  {
    var d0 := DayKnots(days[0], DayOffset(hoursPerDay, dt, 0));
    var d1 := DayKnots(days[1], DayOffset(hoursPerDay, dt, 1));
    var d2 := DayKnots(days[2], DayOffset(hoursPerDay, dt, 2));
    var k := (d0.0 + d1.0 + d2.0, d0.1 + d1.1 + d2.1);
    assert k.0[0..2] == d0.0 && k.1[0..2] == d0.1;
    assert k.0[2..4] == d1.0 && k.1[2..4] == d1.1;
    assert k.0[4..6] == d2.0 && k.1[4..6] == d2.1;
    forall i | 0 <= i < 3
      ensures Placed(k, days[i], DayOffset(hoursPerDay, dt, i), i)
    {
      var dk := if i == 0 then d0 else if i == 1 then d1 else d2;
      DayPlaced(k, days[i], DayOffset(hoursPerDay, dt, i), i, dk);
    }
    k
  }

  /** Day i's minimum and maximum sit, at their hours shifted by the offset,
      in slots 2i and 2i + 1 of the six knots, the earlier one first. */
  predicate Placed(k: (seq<real>, seq<real>), d: DayExtremes, offset: int, i: nat)
    requires |k.0| == 6 && |k.1| == 6 && i < 3
  {
    && k.0[MinSlot(d, i)] == (d.tminHour + offset) as real && k.1[MinSlot(d, i)] == d.tmin
    && k.0[MaxSlot(d, i)] == (d.tmaxHour + offset) as real && k.1[MaxSlot(d, i)] == d.tmax
    && k.0[2 * i] <= k.0[2 * i + 1]
  }

  /** A day's two knots copied into slots 2i and 2i + 1 keep their minimum and maximum slots. */
  lemma DayPlaced(k: (seq<real>, seq<real>), d: DayExtremes, offset: int, i: nat, dk: (seq<real>, seq<real>))
    requires dk == DayKnots(d, offset) && |k.0| == 6 && |k.1| == 6 && i < 3
    requires k.0[2 * i .. 2 * i + 2] == dk.0 && k.1[2 * i .. 2 * i + 2] == dk.1
    ensures Placed(k, d, offset, i)
  {
    assert k.0[2 * i] == dk.0[0] && k.0[2 * i + 1] == dk.0[1];
    assert k.1[2 * i] == dk.1[0] && k.1[2 * i + 1] == dk.1[1];
  }

  /** The time at which output period i is sampled: the int `hour` of the
      second loop, 0.5 * Dt + HOURSPERDAY truncated, then advanced by Dt. */
  function QueryTime(hoursPerDay: int, dt: int, i: int): int {
    TruncateToInt(0.5 * dt as real + hoursPerDay as real) + i * dt
  }

  function Zeros(n: nat): (z: seq<real>)
    ensures |z| == n && forall i | 0 <= i < n :: z[i] == 0.0
  {
    seq(n, _ => 0.0)
  }

  /** The spline HourlyT builds: all slopes zero, coefficients from hermite
      applied to calloc-zeroed yc3/yc4 arrays. */
  function DiurnalSpline(hoursPerDay: int, dt: int, days: seq<DayExtremes>): (s: Spline)
    requires |days| == 3
    requires DistinctSteps(Knots(hoursPerDay, dt, days).0)
    ensures WellFormed(s) && |s.x| == 6 && Fitted(s) && FlatKnots(s)
    ensures s.x == Knots(hoursPerDay, dt, days).0 && s.yc1 == Knots(hoursPerDay, dt, days).1
  {
    var k := Knots(hoursPerDay, dt, days);
    var c := Hermite(k.0, k.1, Zeros(6), Zeros(6), Zeros(6));
    Spline(k.0, k.1, Zeros(6), c.0, c.1)
  }

  /** HourlyT: one temperature per period of the middle day, HOURSPERDAY of
      them whatever Dt is.  Coinciding adjacent knot times, where the source
      divides by zero, are reported instead. */
  function HourlyT(hoursPerDay: int, dt: int, days: seq<DayExtremes>): (r: Result<seq<real>, HourlyError>)
    requires hoursPerDay > 0 && |days| == 3
    ensures r.Success? <==> DistinctSteps(Knots(hoursPerDay, dt, days).0)
    ensures r.Success? ==> |r.value| == hoursPerDay
    ensures r.Success? ==> forall i | 0 <= i < hoursPerDay ::
      r.value[i] == Hermint(DiurnalSpline(hoursPerDay, dt, days), QueryTime(hoursPerDay, dt, i) as real)
  {
    if !DistinctSteps(Knots(hoursPerDay, dt, days).0) then
      Failure(CoincidentKnots)
    else
      Success(Sample(DiurnalSpline(hoursPerDay, dt, days), hoursPerDay, dt))
  }

  /** The second loop of HourlyT: hermint at each of the HOURSPERDAY sampling times. */
  function Sample(s: Spline, hoursPerDay: nat, dt: int): (t: seq<real>)
    requires WellFormed(s)
    ensures |t| == hoursPerDay
    ensures forall i | 0 <= i < hoursPerDay :: t[i] == Hermint(s, QueryTime(hoursPerDay, dt, i) as real)
  {
    seq(hoursPerDay, i requires 0 <= i < hoursPerDay => Hermint(s, QueryTime(hoursPerDay, dt, i) as real))
  }

  /** Every day's two hours are distinct and lie within the day. */
  predicate ValidHours(hoursPerDay: int, days: seq<DayExtremes>) {
    forall i | 0 <= i < |days| ::
      && 0 <= days[i].tminHour < hoursPerDay
      && 0 <= days[i].tmaxHour < hoursPerDay
      && days[i].tminHour != days[i].tmaxHour
  }

  /** With valid hours the six knot times are strictly increasing, so HourlyT succeeds. */
  lemma {:induction false} KnotTimesIncrease(hoursPerDay: int, dt: int, days: seq<DayExtremes>)
    requires hoursPerDay > 0 && |days| == 3 && ValidHours(hoursPerDay, days)
    ensures StrictlyIncreasing(Knots(hoursPerDay, dt, days).0)
    ensures HourlyT(hoursPerDay, dt, days).Success?
  {
    var x := Knots(hoursPerDay, dt, days).0;
    KnotsWithinDay(hoursPerDay, dt, days, 0);
    KnotsWithinDay(hoursPerDay, dt, days, 1);
    KnotsWithinDay(hoursPerDay, dt, days, 2);
    KnotsAcrossDays(hoursPerDay, dt, days, 0);
    KnotsAcrossDays(hoursPerDay, dt, days, 1);
    assert x[0] < x[1] && x[1] < x[2] && x[2] < x[3] && x[3] < x[4] && x[4] < x[5];
    AdjacentIncreasing(x);
    IncreasingHasDistinctSteps(x);
  }

  /** A day with distinct hours puts its earlier knot strictly before its later one. */
  lemma KnotsWithinDay(hoursPerDay: int, dt: int, days: seq<DayExtremes>, i: nat)
    requires hoursPerDay > 0 && |days| == 3 && ValidHours(hoursPerDay, days) && i < 3
    ensures Knots(hoursPerDay, dt, days).0[2 * i] < Knots(hoursPerDay, dt, days).0[2 * i + 1]
  {
    assert MinSlot(days[i], i) != MaxSlot(days[i], i);
  }

  /** Hours within the day keep day i's knots strictly before day i + 1's. */
  lemma KnotsAcrossDays(hoursPerDay: int, dt: int, days: seq<DayExtremes>, i: nat)
    requires hoursPerDay > 0 && |days| == 3 && ValidHours(hoursPerDay, days) && i < 2
    ensures Knots(hoursPerDay, dt, days).0[2 * i + 1] < Knots(hoursPerDay, dt, days).0[2 * i + 2]
  {
    var x := Knots(hoursPerDay, dt, days).0;
    var off := DayOffset(hoursPerDay, dt, i);
    assert DayOffset(hoursPerDay, dt, i + 1) == off + hoursPerDay;
    assert x[2 * i + 1] < (hoursPerDay + off) as real;
    assert (hoursPerDay + off) as real <= x[2 * i + 2];
  }

  /** A tie between a day's minimum and maximum hour gives two equal knot times and an error. */
  lemma TiedHoursFail(hoursPerDay: int, dt: int, days: seq<DayExtremes>, i: nat)
    requires hoursPerDay > 0 && |days| == 3 && i < 3
    requires days[i].tminHour == days[i].tmaxHour
    ensures Knots(hoursPerDay, dt, days).0[2 * i] == Knots(hoursPerDay, dt, days).0[2 * i + 1]
    ensures HourlyT(hoursPerDay, dt, days) == Failure(CoincidentKnots)
  {
    var x := Knots(hoursPerDay, dt, days).0;
    assert x[2 * i + 1 - 1] == x[2 * i + 1];
  }

  /** A period sampled exactly at a knot time reproduces that knot's temperature. */
  lemma {:induction false} HourlyTAtKnot(hoursPerDay: int, dt: int, days: seq<DayExtremes>, p: int, j: nat)
    requires hoursPerDay > 0 && |days| == 3 && ValidHours(hoursPerDay, days)
    requires 0 <= p < hoursPerDay && j < 6
    requires QueryTime(hoursPerDay, dt, p) as real == Knots(hoursPerDay, dt, days).0[j]
    ensures HourlyT(hoursPerDay, dt, days).Success?
    ensures HourlyT(hoursPerDay, dt, days).value[p] == Knots(hoursPerDay, dt, days).1[j]
  {
    KnotTimesIncrease(hoursPerDay, dt, days);
    var s := DiurnalSpline(hoursPerDay, dt, days);
    HermintAtKnot(s, j);
  }

  /** A period sampled exactly at a day's minimum (maximum) hour reproduces that day's Tmin (Tmax). */
  lemma {:induction false} HourlyTAtExtremes(hoursPerDay: int, dt: int, days: seq<DayExtremes>, p: int, i: nat)
    requires hoursPerDay > 0 && |days| == 3 && ValidHours(hoursPerDay, days)
    requires 0 <= p < hoursPerDay && i < 3
    ensures HourlyT(hoursPerDay, dt, days).Success?
    ensures QueryTime(hoursPerDay, dt, p) == days[i].tminHour + DayOffset(hoursPerDay, dt, i)
      ==> HourlyT(hoursPerDay, dt, days).value[p] == days[i].tmin
    ensures QueryTime(hoursPerDay, dt, p) == days[i].tmaxHour + DayOffset(hoursPerDay, dt, i)
      ==> HourlyT(hoursPerDay, dt, days).value[p] == days[i].tmax
  {
    KnotTimesIncrease(hoursPerDay, dt, days);
    if QueryTime(hoursPerDay, dt, p) == days[i].tminHour + DayOffset(hoursPerDay, dt, i) {
      HourlyTAtMinimum(hoursPerDay, dt, days, p, i);
    }
    if QueryTime(hoursPerDay, dt, p) == days[i].tmaxHour + DayOffset(hoursPerDay, dt, i) {
      HourlyTAtMaximum(hoursPerDay, dt, days, p, i);
    }
  }

  /** A period sampled at day i's minimum hour returns that day's Tmin. */
  lemma {:induction false} HourlyTAtMinimum(hoursPerDay: int, dt: int, days: seq<DayExtremes>, p: int, i: nat)
    requires hoursPerDay > 0 && |days| == 3 && ValidHours(hoursPerDay, days)
    requires 0 <= p < hoursPerDay && i < 3
    requires QueryTime(hoursPerDay, dt, p) == days[i].tminHour + DayOffset(hoursPerDay, dt, i)
    ensures HourlyT(hoursPerDay, dt, days).Success?
    ensures HourlyT(hoursPerDay, dt, days).value[p] == days[i].tmin
  {
    var k := Knots(hoursPerDay, dt, days);
    assert Placed(k, days[i], DayOffset(hoursPerDay, dt, i), i);
    HourlyTAtKnot(hoursPerDay, dt, days, p, MinSlot(days[i], i));
  }

  /** A period sampled at day i's maximum hour returns that day's Tmax. */
  lemma {:induction false} HourlyTAtMaximum(hoursPerDay: int, dt: int, days: seq<DayExtremes>, p: int, i: nat)
    requires hoursPerDay > 0 && |days| == 3 && ValidHours(hoursPerDay, days)
    requires 0 <= p < hoursPerDay && i < 3
    requires QueryTime(hoursPerDay, dt, p) == days[i].tmaxHour + DayOffset(hoursPerDay, dt, i)
    ensures HourlyT(hoursPerDay, dt, days).Success?
    ensures HourlyT(hoursPerDay, dt, days).value[p] == days[i].tmax
  {
    var k := Knots(hoursPerDay, dt, days);
    assert Placed(k, days[i], DayOffset(hoursPerDay, dt, i), i);
    HourlyTAtKnot(hoursPerDay, dt, days, p, MaxSlot(days[i], i));
  }

  /** Coldest and warmest of the six input extremes. */
  function Coldest(days: seq<DayExtremes>): real
    requires |days| == 3
  {
    Min(Min(Min(days[0].tmin, days[0].tmax), Min(days[1].tmin, days[1].tmax)), Min(days[2].tmin, days[2].tmax))
  }

  function Warmest(days: seq<DayExtremes>): real
    requires |days| == 3
  {
    Max(Max(Max(days[0].tmin, days[0].tmax), Max(days[1].tmin, days[1].tmax)), Max(days[2].tmin, days[2].tmax))
  }

  lemma KnotValuesWithinExtremes(hoursPerDay: int, dt: int, days: seq<DayExtremes>, j: nat)
    requires |days| == 3 && j < 6
    ensures Coldest(days) <= Knots(hoursPerDay, dt, days).1[j] <= Warmest(days)
  {
  }

  /** Extremum preservation for HourlyT: every period sampled between the
      first and last knot lies between the two knot values around it, and so
      between the coldest and warmest of the three days' extremes. */
  lemma {:induction false} HourlyTWithinExtremes(hoursPerDay: int, dt: int, days: seq<DayExtremes>, p: int)
    requires hoursPerDay > 0 && |days| == 3 && ValidHours(hoursPerDay, days)
    requires 0 <= p < hoursPerDay
    requires Knots(hoursPerDay, dt, days).0[0] <= QueryTime(hoursPerDay, dt, p) as real <= Knots(hoursPerDay, dt, days).0[5]
    ensures HourlyT(hoursPerDay, dt, days).Success?
    ensures Coldest(days) <= HourlyT(hoursPerDay, dt, days).value[p] <= Warmest(days)
  {
    KnotTimesIncrease(hoursPerDay, dt, days);
    var s := DiurnalSpline(hoursPerDay, dt, days);
    var q := QueryTime(hoursPerDay, dt, p) as real;
    FlatHermintBetweenKnots(s, q);
    var k := Locate(s.x, q);
    KnotValuesWithinExtremes(hoursPerDay, dt, days, k);
    KnotValuesWithinExtremes(hoursPerDay, dt, days, k + 1);
  }

  /** With the hourly step Dt = 1 every sampled time of the middle day lies inside the knot range. */
  lemma HourlyStepInsideKnots(hoursPerDay: int, days: seq<DayExtremes>, p: int)
    requires hoursPerDay > 0 && |days| == 3 && ValidHours(hoursPerDay, days)
    requires 0 <= p < hoursPerDay
    ensures QueryTime(hoursPerDay, 1, p) == hoursPerDay + p
    ensures Knots(hoursPerDay, 1, days).0[0] <= QueryTime(hoursPerDay, 1, p) as real <= Knots(hoursPerDay, 1, days).0[5]
  {
    assert HalfStep(1) == 0;
    assert TruncateToInt(0.5 + hoursPerDay as real) == hoursPerDay;
    var x := Knots(hoursPerDay, 1, days).0;
    assert x[0] <= x[1] && x[4] <= x[5];
    assert x[0] < hoursPerDay as real by {
      assert x[MinSlot(days[0], 0)] < hoursPerDay as real;
      assert x[MaxSlot(days[0], 0)] < hoursPerDay as real;
    }
    assert (2 * hoursPerDay) as real <= x[5] by {
      assert (2 * hoursPerDay) as real <= x[MinSlot(days[2], 2)];
      assert (2 * hoursPerDay) as real <= x[MaxSlot(days[2], 2)];
    }
  }

  /** The textbook diurnal pattern: every day has its minimum lo at hour 6 and
      its maximum hi at hour 18; hourly step, 24 periods per day. */
  function PatternDays(lo: real, hi: real): (days: seq<DayExtremes>)
    ensures |days| == 3 && ValidHours(24, days)
  {
    var d := DayExtremes(6, lo, 18, hi);
    [d, d, d]
  }

  lemma PatternKnots(lo: real, hi: real)
    ensures Knots(24, 1, PatternDays(lo, hi)).0 == [6.0, 18.0, 30.0, 42.0, 54.0, 66.0]
    ensures Knots(24, 1, PatternDays(lo, hi)).1 == [lo, hi, lo, hi, lo, hi]
  {
    assert HalfStep(1) == 0;
  }

  /** In the pattern the middle day passes through lo at hour 6 and hi at hour 18. */
  lemma PatternExtremes(lo: real, hi: real)
    ensures HourlyT(24, 1, PatternDays(lo, hi)).Success?
    ensures HourlyT(24, 1, PatternDays(lo, hi)).value[6] == lo
    ensures HourlyT(24, 1, PatternDays(lo, hi)).value[18] == hi
  {
    PatternKnots(lo, hi);
    HourlyStepInsideKnots(24, PatternDays(lo, hi), 6);
    HourlyStepInsideKnots(24, PatternDays(lo, hi), 18);
    HourlyTAtKnot(24, 1, PatternDays(lo, hi), 6, 2);
    HourlyTAtKnot(24, 1, PatternDays(lo, hi), 18, 3);
  }

  /** In the pattern every hour of the middle day stays within [lo, hi]. */
  lemma PatternRange(lo: real, hi: real, h: int)
    requires lo <= hi && 0 <= h < 24
    ensures HourlyT(24, 1, PatternDays(lo, hi)).Success?
    ensures lo <= HourlyT(24, 1, PatternDays(lo, hi)).value[h] <= hi
  {
    var days := PatternDays(lo, hi);
    assert Coldest(days) == lo && Warmest(days) == hi;
    HourlyStepInsideKnots(24, days, h);
    HourlyTWithinExtremes(24, 1, days, h);
  }

  /** In the pattern period p of the middle day is the spline at hour 24 + p. */
  lemma PatternSample(lo: real, hi: real, p: int)
    requires 0 <= p < 24
    ensures HourlyT(24, 1, PatternDays(lo, hi)).Success?
    ensures HourlyT(24, 1, PatternDays(lo, hi)).value[p] == Hermint(DiurnalSpline(24, 1, PatternDays(lo, hi)), (24 + p) as real)
  {
    KnotTimesIncrease(24, 1, PatternDays(lo, hi));
    HourlyStepInsideKnots(24, PatternDays(lo, hi), p);
  }

  /** In the pattern the middle day warms monotonically from hour 6 to hour 18. */
  lemma {:induction false} PatternRises(lo: real, hi: real, p: int, q: int)
    requires lo <= hi && 6 <= p <= q <= 18
    ensures HourlyT(24, 1, PatternDays(lo, hi)).Success?
    ensures HourlyT(24, 1, PatternDays(lo, hi)).value[p] <= HourlyT(24, 1, PatternDays(lo, hi)).value[q]
  {
    if q < 18 {
      PatternRisesBeforeMaximum(lo, hi, p, q);
    } else {
      assert q == 18;
      PatternBelowMaximum(lo, hi, p);
      var v := HourlyT(24, 1, PatternDays(lo, hi)).value;
      assert v[p] <= v[18];
      assert v[q] == v[18];
    }
  }

  lemma {:induction false} PatternRisesBeforeMaximum(lo: real, hi: real, p: int, q: int)
    requires lo <= hi && 6 <= p <= q < 18
    ensures HourlyT(24, 1, PatternDays(lo, hi)).Success?
    ensures HourlyT(24, 1, PatternDays(lo, hi)).value[p] <= HourlyT(24, 1, PatternDays(lo, hi)).value[q]
  {
    PatternSample(lo, hi, p);
    PatternSample(lo, hi, q);
    PatternRisingSegment(lo, hi, (24 + p) as real, (24 + q) as real);
  }

  lemma {:induction false} PatternBelowMaximum(lo: real, hi: real, p: int)
    requires lo <= hi && 0 <= p < 24
    ensures HourlyT(24, 1, PatternDays(lo, hi)).Success?
    ensures HourlyT(24, 1, PatternDays(lo, hi)).value[p] <= HourlyT(24, 1, PatternDays(lo, hi)).value[18]
  {
    PatternExtremes(lo, hi);
    PatternRange(lo, hi, p);
  }

  /** The pattern's spline rises on its third segment, from hour 30 to hour 42. */
  lemma {:induction false} PatternRisingSegment(lo: real, hi: real, a: real, b: real)
    requires lo <= hi && 30.0 <= a <= b < 42.0
    ensures DistinctSteps(Knots(24, 1, PatternDays(lo, hi)).0)
    ensures Hermint(DiurnalSpline(24, 1, PatternDays(lo, hi)), a) <= Hermint(DiurnalSpline(24, 1, PatternDays(lo, hi)), b)
  {
    KnotTimesIncrease(24, 1, PatternDays(lo, hi));
    PatternKnots(lo, hi);
    var s := DiurnalSpline(24, 1, PatternDays(lo, hi));
    assert s.x[2] == 30.0 && s.x[3] == 42.0 && s.yc1[2] == lo && s.yc1[3] == hi;
    FlatHermintMonotone(s, 2, a, b);
  }

  /** In the pattern the middle day cools monotonically from hour 18 to the
      end of the day. */
  lemma {:induction false} PatternFallsAfterMaximum(lo: real, hi: real, p: int, q: int)
    requires lo <= hi && 18 <= p <= q < 24
    ensures HourlyT(24, 1, PatternDays(lo, hi)).Success?
    ensures HourlyT(24, 1, PatternDays(lo, hi)).value[q] <= HourlyT(24, 1, PatternDays(lo, hi)).value[p]
  {
    PatternSample(lo, hi, p);
    PatternSample(lo, hi, q);
    PatternFallingSegment(lo, hi, 3, (24 + p) as real, (24 + q) as real);
  }

  /** In the pattern the middle day cools monotonically from its start to hour 6. */
  lemma {:induction false} PatternFallsBeforeMinimum(lo: real, hi: real, p: int, q: int)
    requires lo <= hi && 0 <= p <= q <= 6
    ensures HourlyT(24, 1, PatternDays(lo, hi)).Success?
    ensures HourlyT(24, 1, PatternDays(lo, hi)).value[q] <= HourlyT(24, 1, PatternDays(lo, hi)).value[p]
  {
    if q < 6 {
      PatternFallsToMinimum(lo, hi, p, q);
    } else {
      assert q == 6;
      PatternAboveMinimum(lo, hi, p);
      var v := HourlyT(24, 1, PatternDays(lo, hi)).value;
      assert v[6] <= v[p];
      assert v[q] == v[6];
    }
  }

  lemma {:induction false} PatternFallsToMinimum(lo: real, hi: real, p: int, q: int)
    requires lo <= hi && 0 <= p <= q < 6
    ensures HourlyT(24, 1, PatternDays(lo, hi)).Success?
    ensures HourlyT(24, 1, PatternDays(lo, hi)).value[q] <= HourlyT(24, 1, PatternDays(lo, hi)).value[p]
  {
    PatternSample(lo, hi, p);
    PatternSample(lo, hi, q);
    PatternFallingSegment(lo, hi, 1, (24 + p) as real, (24 + q) as real);
  }

  lemma {:induction false} PatternAboveMinimum(lo: real, hi: real, p: int)
    requires lo <= hi && 0 <= p < 24
    ensures HourlyT(24, 1, PatternDays(lo, hi)).Success?
    ensures HourlyT(24, 1, PatternDays(lo, hi)).value[6] <= HourlyT(24, 1, PatternDays(lo, hi)).value[p]
  {
    PatternExtremes(lo, hi);
    PatternRange(lo, hi, p);
  }

  /** The pattern's spline falls on its second and fourth segments, from hour
      18 to hour 30 and from hour 42 to hour 54. */
  lemma {:induction false} PatternFallingSegment(lo: real, hi: real, j: nat, a: real, b: real)
    requires lo <= hi && (j == 1 || j == 3)
    requires (12 * j + 6) as real <= a <= b < (12 * j + 18) as real
    ensures DistinctSteps(Knots(24, 1, PatternDays(lo, hi)).0)
    ensures Hermint(DiurnalSpline(24, 1, PatternDays(lo, hi)), b) <= Hermint(DiurnalSpline(24, 1, PatternDays(lo, hi)), a)
  {
    KnotTimesIncrease(24, 1, PatternDays(lo, hi));
    PatternKnots(lo, hi);
    var s := DiurnalSpline(24, 1, PatternDays(lo, hi));
    if j == 1 {
      assert s.x[1] == 18.0 && s.x[2] == 30.0 && s.yc1[1] == hi && s.yc1[2] == lo;
    } else {
      assert s.x[3] == 42.0 && s.x[4] == 54.0 && s.yc1[3] == hi && s.yc1[4] == lo;
    }
    FlatHermintMonotone(s, j, a, b);
  }
}

=== FILE: long_shortwave.dfy ===
/** calc_long_shortwave: incoming shortwave and longwave radiation and cloud
    cover for one time step, from location, date, hour and whichever of the
    three quantities are measured.  The C static `last_tskc` is threaded
    through as explicit state (CloudMemory). */
module LongShortwave {
  import opened Results
  import opened RealArith

  /** The C math library calls of the routine, taken as parameters. */
  datatype MathLib = MathLib(
    cos: real -> real,
    sin: real -> real,
    asin: real -> real,
    pow: (real, real) -> real,
    exp: real -> real,
    log10: real -> real,
    sqrt: real -> real)

  /** The only facts about the math library the model relies on. */
  ghost predicate Lawful(lib: MathLib) {
    && (forall a :: -1.0 <= lib.cos(a) <= 1.0)
    && (forall a :: 0.0 < lib.exp(a))
    && (forall y :: 0.0 <= y ==> 0.0 <= lib.sqrt(y) && lib.sqrt(y) * lib.sqrt(y) == y)
  }

  /** PI and the vicNl.h constants the routine reads. */
  datatype Constants = Constants(pi: real, solarTimeOffset: real, stefanB: real, kelvin: real, lwaveCor: real)

  predicate ValidConstants(k: Constants) {
    0.0 < k.pi && 0.0 < k.stefanB && 0.0 < k.lwaveCor
  }

  /** HAVE_SHORTWAVE, HAVE_LONGWAVE, HAVE_TSKC: which quantities are measured. */
  datatype Flags = Flags(haveShortwave: bool, haveLongwave: bool, haveTskc: bool)

  /** The by-value arguments: air temperature (C), vapour pressure (kPa),
      time-zone and cell longitudes, latitude (degrees), day of year, hour. */
  datatype Forcing = Forcing(airTemp: real, vp: real, thetaL: real, thetaS: real, phi: real, jdate: real, hour: real)

  /** The three in/out arguments *shortwave, *longwave and *tskc. */
  datatype Radiation = Radiation(shortwave: real, longwave: real, tskc: real)

  /** The static `last_tskc`: the most recently derived cloud cover. */
  datatype CloudMemory = CloudMemory(lastTskc: real)

  /** A C static starts at zero. */
  const InitialMemory := CloudMemory(0.0)

  /** The daytime call whose flags name no way to get both radiation terms: the nrerror branch. */
  datatype RadiationError = MissingCloudCover

  /** i_var: +1 when fabs(theta_l) equals theta_l, else -1. */
  function TimeZoneSign(thetaL: real): (s: real)
    ensures s == 1.0 || s == -1.0
    ensures s == 1.0 <==> 0.0 <= thetaL
  {
    if Abs(thetaL) == thetaL then 1.0 else -1.0
  }

  /** The hours by which the cell's solar time is shifted against the time zone. */
  function MeridianShift(thetaL: real, thetaS: real): real {
    (thetaL - thetaS) * 24.0 / 360.0
  }

  /** The east/west test on the hour: afternoon window or before the zero hour. */
  predicate SunPastMeridian(hour: real, thetaL: real, thetaS: real) {
    var shift := MeridianShift(thetaL, thetaS);
    (hour > 12.0 + shift && hour < 24.0 + shift) || hour < 0.0 + shift
  }

  /** The longitude correction inside both tau formulas, in hours. */
  function LongitudeCorrection(thetaL: real, thetaS: real): real {
    TimeZoneSign(thetaL) / 15.0 * (Abs(thetaS) - Abs(thetaL))
  }

  /** tau, the hour angle in degrees.  The two formulas of the source differ
      by exactly one turn, the hour-12 one being used past the meridian. */
  function HourAngle(hour: real, thetaL: real, thetaS: real): (tau: real)
    ensures var noon := 15.0 * (hour - 12.0 - LongitudeCorrection(thetaL, thetaS));
      && (SunPastMeridian(hour, thetaL, thetaS) ==> tau == noon)
      && (!SunPastMeridian(hour, thetaL, thetaS) ==> tau == noon + 360.0)
  {
    var c := LongitudeCorrection(thetaL, thetaS);
    if SunPastMeridian(hour, thetaL, thetaS) then
      (hour - 12.0 - c) * 15.0
    else
      (hour + 12.0 - c) * 15.0
  }

  function Declination(lib: MathLib, k: Constants, jdate: real): real {
    23.45 * k.pi / 180.0 * lib.cos(2.0 * k.pi / 365.0 * (172.0 - jdate))
  }

  /** The sine of the solar altitude for a given hour angle. */
  function SinAltitude(lib: MathLib, k: Constants, w: Forcing, tau: real): real {
    var decl := Declination(lib, k, w.jdate);
    lib.sin(decl) * lib.sin(w.phi * k.pi / 180.0)
      + lib.cos(decl) * lib.cos(w.phi * k.pi / 180.0) * lib.cos(tau * k.pi / 180.0)
  }

  /** Earth-sun distance relative to its mean. */
  function SunDistance(lib: MathLib, k: Constants, jdate: real): (radius: real)
    requires Lawful(lib)
    ensures 0.983 <= radius <= 1.017
  {
    1.0 + 0.017 * lib.cos(2.0 * k.pi / 365.0 * (186.0 - jdate))
  }

  /** The solar position of the step: sin_alpha and the top-of-atmosphere irradiance I0. */
  datatype Sun = Sun(sinAlpha: real, i0: real)

  function SolarPosition(lib: MathLib, k: Constants, w: Forcing): (sun: Sun)
    requires Lawful(lib)
    ensures 0.0 < sun.i0 <==> 0.0 < sun.sinAlpha
    ensures 0.0 < sun.sinAlpha ==> sun.i0 <= 1353.0 * sun.sinAlpha / (0.983 * 0.983)
  {
    var hour := w.hour - k.solarTimeOffset;
    var tau := HourAngle(hour, w.thetaL, w.thetaS);
    var sinAlpha := SinAltitude(lib, k, w, tau);
    var radius := SunDistance(lib, k, w.jdate);
    var i0 := 1353.0 * sinAlpha / radius / radius;
    IrradianceSign(1353.0 * sinAlpha, radius);
    Irradiance(sinAlpha, i0, radius);
    Sun(sinAlpha, i0)
  }

  lemma IrradianceSign(a: real, radius: real)
    requires 0.0 < radius
    ensures 0.0 < a <==> 0.0 < a / radius / radius
  {
    assert a / radius / radius * radius * radius == a;
    if 0.0 < a / radius / radius {
      assert 0.0 < a / radius / radius * radius;
    }
  }

  lemma Irradiance(sinAlpha: real, i0: real, radius: real)
    requires 0.983 <= radius && i0 == 1353.0 * sinAlpha / radius / radius
    ensures 0.0 < sinAlpha ==> i0 <= 1353.0 * sinAlpha / (0.983 * 0.983)
  {
    var a := 1353.0 * sinAlpha;
    assert i0 == a / (radius * radius);
    assert 0.983 * 0.983 <= radius * radius;
  }

  /** The clear-sky irradiance Ic from the optical air mass m; positive whenever I0 is. */
  function ClearSky(lib: MathLib, sun: Sun): (ic: real)
    requires Lawful(lib)
    ensures 0.0 < sun.i0 ==> 0.0 < ic
  {
    var m := lib.pow(sun.sinAlpha + 0.15 * lib.pow(lib.asin(sun.sinAlpha) + 3.885, -1.253), -1.0);
    var e := lib.exp(-2.0 * (0.128 - 0.054 * lib.log10(m)) * m);
    if 0.0 < sun.i0 then
      PositiveProduct(sun.i0, e, sun.i0 * e);
      sun.i0 * e
    else
      sun.i0 * e
  }

  /** Shortwave estimated from cloud cover: the cloud term is attenuated by
      0.65 * tskc^2 / 100, and a negative result is clamped to zero. */
  function ShortwaveFromCloud(tskc: real, ic: real): (sw: real)
    ensures 0.0 <= sw
    ensures 0.0 <= ic ==> sw <= ic
    ensures 0.0 <= ic && tskc == 0.0 ==> sw == ic
    ensures 0.0 <= ic && tskc * tskc <= 100.0 / 0.65 ==> sw * 100.0 == (100.0 - 0.65 * tskc * tskc) * ic
    ensures 0.0 < ic && 100.0 < 0.65 * tskc * tskc ==> sw == 0.0
  {
    var sw := (1.0 - 0.65 * (tskc * tskc) / 100.0) * ic;
    if sw < 0.0 then 0.0
    else
      Attenuation(tskc * tskc, ic);
      sw
  }

  lemma Attenuation(c2: real, ic: real)
    requires 0.0 <= c2
    ensures 0.0 <= ic ==> (1.0 - 0.65 * c2 / 100.0) * ic <= ic
  {
    if 0.0 <= ic {
      ProductNonNegative(0.65 * c2 / 100.0, ic);
    }
  }

  /** Cloud cover inferred from a measured shortwave below the clear-sky value:
      the square root of the missing fraction over 0.65. */
  function CloudFromShortwave(lib: MathLib, sw: real, ic: real): (tskc: real)
    requires Lawful(lib) && 0.0 < ic && sw < ic
    ensures 0.0 < tskc
    ensures 0.65 * tskc * tskc == 1.0 - sw / ic
  {
    var y := (1.0 - sw / ic) / 0.65;
    QuotientBelowOne(sw, ic);
    var t := lib.sqrt(y);
    assert t * t == y;
    t
  }

  lemma QuotientBelowOne(sw: real, ic: real)
    requires 0.0 < ic && sw < ic
    ensures sw / ic < 1.0
  {
    assert sw / ic * ic == sw;
  }

  /** x to the fourth power: pow(x, 4.0) is exact for this integer exponent. */
  function Fourth(x: real): real { x * x * x * x }

  /** Incoming longwave for a cloud cover: clear-sky emissivity from vapour
      pressure, raised by 0.17 * tskc^2, times the Stefan-Boltzmann term. */
  function Longwave(k: Constants, tskc: real, vp: real, airTemp: real): (lw: real)
    requires ValidConstants(k)
    ensures 0.0 <= 0.740 + 0.0049 * vp * 10.0 ==> 0.0 <= lw
    ensures 0.0 < 0.740 + 0.0049 * vp * 10.0 && airTemp + k.kelvin != 0.0 ==> 0.0 < lw
  {
    var e := 0.740 + 0.0049 * vp * 10.0;
    var x := airTemp + k.kelvin;
    var lw := (1.0 + 0.17 * tskc * tskc) * e * k.stefanB * Fourth(x) / k.lwaveCor;
    LongwaveSign(k, tskc, e, x, lw);
    lw
  }

  /** The sign of the longwave formula follows that of its emissivity term e. */
  lemma LongwaveSign(k: Constants, tskc: real, e: real, x: real, lw: real)
    requires ValidConstants(k)
    requires lw == (1.0 + 0.17 * tskc * tskc) * e * k.stefanB * Fourth(x) / k.lwaveCor
    ensures 0.0 <= e ==> 0.0 <= lw
    ensures 0.0 < e && x != 0.0 ==> 0.0 < lw
  {
    var t2 := tskc * tskc;
    ProductNonNegative(Abs(tskc), Abs(tskc));
    assert t2 == Abs(tskc) * Abs(tskc);
    var cloud := 1.0 + 0.17 * t2;
    var x2 := x * x;
    ProductNonNegative(Abs(x), Abs(x));
    assert x2 == Abs(x) * Abs(x);
    var x4 := x2 * x2;
    assert Fourth(x) == x4;
    ProductNonNegative(x2, x2);
    if 0.0 <= e {
      var a := cloud * e;
      ProductNonNegative(cloud, e);
      var b := a * k.stefanB;
      ProductNonNegative(a, k.stefanB);
      var c := b * x4;
      ProductNonNegative(b, x4);
      assert lw == c / k.lwaveCor;
      if 0.0 < e && x != 0.0 {
        PositiveProduct(Abs(x), Abs(x), x2);
        PositiveProduct(x2, x2, x4);
        PositiveProduct(cloud, e, a);
        PositiveProduct(a, k.stefanB, b);
        PositiveProduct(b, x4, c);
      }
    }
  }

  /** Daytime: the top-of-atmosphere irradiance of the step is positive. */
  predicate Daytime(lib: MathLib, k: Constants, w: Forcing)
    requires Lawful(lib)
  {
    SolarPosition(lib, k, w).i0 > 0.0
  }

  /** The incoming shortwave after the reset at the top: a measured value, or zero
      when it is not measured or negative. */
  function MeasuredShortwave(f: Flags, rad: Radiation): (sw: real)
    ensures 0.0 <= sw
    ensures !f.haveShortwave ==> sw == 0.0
    ensures f.haveShortwave ==> sw == Max(rad.shortwave, 0.0)
  {
    if !f.haveShortwave || (f.haveShortwave && rad.shortwave < 0.0) then 0.0 else rad.shortwave
  }

  /** One call: the new radiation triple and the new `last_tskc`. */
  function CalcLongShortwave(lib: MathLib, k: Constants, f: Flags, w: Forcing, rad: Radiation, mem: CloudMemory)
    : (r: Result<(Radiation, CloudMemory), RadiationError>)
    requires Lawful(lib) && ValidConstants(k)
    // the error path: daytime with both radiation terms measured, or with neither shortwave nor cloud cover
    ensures r.Failure? <==>
      Daytime(lib, k, w) && ((f.haveShortwave && f.haveLongwave) || (!f.haveShortwave && !f.haveTskc))
    // shortwave is never negative; a measured one passes through unless negative
    ensures r.Success? ==> 0.0 <= r.value.0.shortwave
    ensures r.Success? && f.haveShortwave ==> r.value.0.shortwave == Max(rad.shortwave, 0.0)
    ensures r.Success? && !f.haveShortwave && !Daytime(lib, k, w) ==> r.value.0.shortwave == 0.0
    // longwave: kept when measured, otherwise consistent with the reported cloud cover
    ensures r.Success? && f.haveLongwave ==> r.value.0.longwave == rad.longwave
    ensures r.Success? && !f.haveLongwave ==> r.value.0.longwave == Longwave(k, r.value.0.tskc, w.vp, w.airTemp)
    // cloud cover: kept, recalled from memory, or derived; memory changes only when derived
    ensures r.Success? ==>
      || (r.value.0.tskc == rad.tskc && r.value.1 == mem)
      || (r.value.0.tskc == mem.lastTskc && r.value.1 == mem)
      || (&& Daytime(lib, k, w) && f.haveShortwave && !f.haveLongwave
          && r.value.1.lastTskc == r.value.0.tskc
          && 0.65 * r.value.0.tskc * r.value.0.tskc
             == 1.0 - r.value.0.shortwave / SolarPosition(lib, k, w).i0)
    ensures r.Success? && f.haveTskc && !(f.haveShortwave && !f.haveLongwave) ==> r.value.0.tskc == rad.tskc
  {
    var sun := SolarPosition(lib, k, w);
    var sw := MeasuredShortwave(f, rad);
    if sun.i0 > 0.0 then
      var ic := if f.haveShortwave then sun.i0 else ClearSky(lib, sun);
      if !f.haveShortwave && f.haveTskc then
        var lw := if !f.haveLongwave then Longwave(k, rad.tskc, w.vp, w.airTemp) else rad.longwave;
        Success((Radiation(ShortwaveFromCloud(rad.tskc, ic), lw, rad.tskc), mem))
      else if f.haveShortwave && !f.haveLongwave then
        if sw < ic then
          var c := CloudFromShortwave(lib, sw, ic);
          Success((Radiation(sw, Longwave(k, c, w.vp, w.airTemp), c), CloudMemory(c)))
        else
          Success((Radiation(sw, Longwave(k, mem.lastTskc, w.vp, w.airTemp), mem.lastTskc), mem))
      else
        Failure(MissingCloudCover)
    else
      var c := if f.haveShortwave && !f.haveTskc then mem.lastTskc else rad.tskc;
      var lw := if !f.haveLongwave then Longwave(k, c, w.vp, w.airTemp) else rad.longwave;
      Success((Radiation(sw, lw, c), mem))
  }

  /** Estimating shortwave in daytime: the clamped cloud formula on the clear-sky
      irradiance, and `last_tskc` untouched. */
  lemma EstimateBranch(lib: MathLib, k: Constants, f: Flags, w: Forcing, rad: Radiation, mem: CloudMemory)
    requires Lawful(lib) && ValidConstants(k)
    requires Daytime(lib, k, w) && !f.haveShortwave && f.haveTskc
    ensures var r := CalcLongShortwave(lib, k, f, w, rad, mem);
      && r.Success?
      && r.value.0.shortwave == ShortwaveFromCloud(rad.tskc, ClearSky(lib, SolarPosition(lib, k, w)))
      && r.value.0.shortwave <= ClearSky(lib, SolarPosition(lib, k, w))
      && (rad.tskc == 0.0 ==> r.value.0.shortwave == ClearSky(lib, SolarPosition(lib, k, w)))
      && r.value.0.tskc == rad.tskc
      && r.value.1 == mem
  {
  }

  /** Measured shortwave at or above I0 in daytime: the cloud cover falls back on
      `last_tskc`, which is itself unchanged. */
  lemma SaturatedShortwaveRecalls(lib: MathLib, k: Constants, f: Flags, w: Forcing, rad: Radiation, mem: CloudMemory)
    requires Lawful(lib) && ValidConstants(k)
    requires Daytime(lib, k, w) && f.haveShortwave && !f.haveLongwave
    requires SolarPosition(lib, k, w).i0 <= rad.shortwave
    ensures var r := CalcLongShortwave(lib, k, f, w, rad, mem);
      && r.Success?
      && r.value.0.tskc == mem.lastTskc
      && r.value.1 == mem
      && r.value.0.longwave == Longwave(k, mem.lastTskc, w.vp, w.airTemp)
  {
  }

  /** Measured shortwave below I0 in daytime: the derived cloud cover is positive,
      solves the inverse formula against I0, and is remembered. */
  lemma DeriveBranch(lib: MathLib, k: Constants, f: Flags, w: Forcing, rad: Radiation, mem: CloudMemory)
    requires Lawful(lib) && ValidConstants(k)
    requires Daytime(lib, k, w) && f.haveShortwave && !f.haveLongwave
    requires rad.shortwave < SolarPosition(lib, k, w).i0
    ensures var r := CalcLongShortwave(lib, k, f, w, rad, mem);
      && r.Success?
      && 0.0 < r.value.0.tskc
      && 0.65 * r.value.0.tskc * r.value.0.tskc == 1.0 - Max(rad.shortwave, 0.0) / SolarPosition(lib, k, w).i0
      && r.value.1 == CloudMemory(r.value.0.tskc)
  {
  }

  /** At night `last_tskc` is never written, and measured shortwave without a
      cloud value takes the remembered cloud cover. */
  lemma NightBranch(lib: MathLib, k: Constants, f: Flags, w: Forcing, rad: Radiation, mem: CloudMemory)
    requires Lawful(lib) && ValidConstants(k)
    requires !Daytime(lib, k, w)
    ensures var r := CalcLongShortwave(lib, k, f, w, rad, mem);
      && r.Success?
      && r.value.1 == mem
      && (f.haveShortwave && !f.haveTskc ==> r.value.0.tskc == mem.lastTskc)
      && (!(f.haveShortwave && !f.haveTskc) ==> r.value.0.tskc == rad.tskc)
  {
  }

  /** State threading: a daytime derivation followed by a night step that
      measures shortwave but not cloud cover reports the derived value. */
  lemma NightRecallsDerivedCloudCover(lib: MathLib, k: Constants, f: Flags, day: Forcing, night: Forcing,
                                      rad: Radiation, rad': Radiation, mem: CloudMemory)
    requires Lawful(lib) && ValidConstants(k)
    requires f.haveShortwave && !f.haveLongwave && !f.haveTskc
    requires Daytime(lib, k, day) && rad.shortwave < SolarPosition(lib, k, day).i0
    requires !Daytime(lib, k, night)
    ensures var first := CalcLongShortwave(lib, k, f, day, rad, mem);
      && first.Success?
      && var second := CalcLongShortwave(lib, k, f, night, rad', first.value.1);
      && second.Success?
      && second.value.0.tskc == first.value.0.tskc
      && second.value.1 == first.value.1
  {
    DeriveBranch(lib, k, f, day, rad, mem);
    var first := CalcLongShortwave(lib, k, f, day, rad, mem);
    NightBranch(lib, k, f, night, rad', first.value.1);
  }

  /** The static starts at zero: before any cloud cover has been derived, a
      call that falls back on `last_tskc` reports a cloud cover of 0. */
  lemma FirstRecallIsZero(lib: MathLib, k: Constants, f: Flags, w: Forcing, rad: Radiation)
    requires Lawful(lib) && ValidConstants(k)
    requires f.haveShortwave && !f.haveLongwave && !f.haveTskc
    requires !Daytime(lib, k, w) || SolarPosition(lib, k, w).i0 <= rad.shortwave
    ensures var r := CalcLongShortwave(lib, k, f, w, rad, InitialMemory);
      && r.Success?
      && r.value.0.tskc == 0.0
      && r.value.1 == InitialMemory
  {
  }

  /** Successive calls with the same flags, each handing its `last_tskc` to the next. */
  function Run(lib: MathLib, k: Constants, f: Flags, steps: seq<(Forcing, Radiation)>, mem: CloudMemory)
    : (r: Result<(seq<Radiation>, CloudMemory), RadiationError>)
    requires Lawful(lib) && ValidConstants(k)
    ensures r.Success? ==> |r.value.0| == |steps|
  {
    if |steps| == 0 then Success(([], mem))
    else
      var first := CalcLongShortwave(lib, k, f, steps[0].0, steps[0].1, mem);
      if first.Failure? then Failure(first.error)
      else
        var rest := Run(lib, k, f, steps[1..], first.value.1);
        if rest.Failure? then Failure(rest.error)
        else Success(([first.value.0] + rest.value.0, rest.value.1))
  }

  /** Unless shortwave is measured and longwave is not, no call ever writes
      `last_tskc`, however many steps are run. */
  lemma {:induction false} RunKeepsMemory(lib: MathLib, k: Constants, f: Flags, steps: seq<(Forcing, Radiation)>, mem: CloudMemory)
    requires Lawful(lib) && ValidConstants(k)
    requires !(f.haveShortwave && !f.haveLongwave)
    ensures Run(lib, k, f, steps, mem).Success? ==> Run(lib, k, f, steps, mem).value.1 == mem
  {
    if |steps| > 0 {
      var first := CalcLongShortwave(lib, k, f, steps[0].0, steps[0].1, mem);
      if first.Success? {
        RunKeepsMemory(lib, k, f, steps[1..], first.value.1);
      }
    }
  }

  /** After any run `last_tskc` is either what it was before or the cloud
      cover one of the steps reported. */
  lemma {:induction false} RunMemoryTraces(lib: MathLib, k: Constants, f: Flags, steps: seq<(Forcing, Radiation)>, mem: CloudMemory)
    requires Lawful(lib) && ValidConstants(k)
    ensures var r := Run(lib, k, f, steps, mem);
      r.Success? ==> r.value.1 == mem || exists i | 0 <= i < |steps| :: r.value.1.lastTskc == r.value.0[i].tskc
  {
    if |steps| > 0 {
      var first := CalcLongShortwave(lib, k, f, steps[0].0, steps[0].1, mem);
      if first.Success? {
        RunMemoryTraces(lib, k, f, steps[1..], first.value.1);
        var rest := Run(lib, k, f, steps[1..], first.value.1);
        var r := Run(lib, k, f, steps, mem);
        if rest.Success? {
          assert r.value.0 == [first.value.0] + rest.value.0;
          if rest.value.1 == first.value.1 {
            if first.value.1 != mem {
              assert r.value.1.lastTskc == r.value.0[0].tskc;
            }
          } else {
            var j :| 0 <= j < |rest.value.0| && rest.value.1.lastTskc == rest.value.0[j].tskc;
            assert r.value.0[j + 1] == rest.value.0[j];
          }
        }
      }
    }
  }

  /** The forward and inverse cloud formulas are not inverse to each other: the
      forward one divides tskc^2 by 100 and the inverse one does not, so a cloud
      cover sent through both comes back ten times smaller. */
  lemma CloudCoverRoundTripOffByTen(lib: MathLib, c: real, ic: real)
    requires Lawful(lib) && 0.0 < ic && 0.0 < Abs(c) && 0.65 * c * c <= 100.0
    ensures ShortwaveFromCloud(c, ic) < ic
    ensures CloudFromShortwave(lib, ShortwaveFromCloud(c, ic), ic) == Abs(c) / 10.0
  {
    var sw := ShortwaveFromCloud(c, ic);
    var c2 := c * c;
    assert sw * 100.0 == (100.0 - 0.65 * c2) * ic;
    SquarePositive(c, c2);
    CloudAttenuates(sw, ic, c2);
    var t := CloudFromShortwave(lib, sw, ic);
    var q := sw / ic;
    assert q * ic == sw;
    assert (q * 100.0) * ic == (q * ic) * 100.0;
    Cancel(q * 100.0, 100.0 - 0.65 * c2, ic);
    assert t * t == c2 / 100.0;
    var a := Abs(c) / 10.0;
    assert a * a == c2 / 100.0;
    SquareRootUnique(t, a);
  }

  /** A non-zero cloud cover takes a strictly positive share off the clear-sky value. */
  lemma CloudAttenuates(sw: real, ic: real, c2: real)
    requires 0.0 < ic && 0.0 < c2 && sw * 100.0 == (100.0 - 0.65 * c2) * ic
    ensures sw < ic
  {
    PositiveProduct(0.65 * c2, ic, 0.65 * c2 * ic);
    assert (100.0 - 0.65 * c2) * ic == 100.0 * ic - 0.65 * c2 * ic;
  }

  /** The square c2 of a non-zero c is positive. */
  lemma SquarePositive(c: real, c2: real)
    requires 0.0 < Abs(c) && c2 == c * c
    ensures 0.0 < c2
  {
    PositiveProduct(Abs(c), Abs(c), c2);
  }

  lemma Cancel(a: real, b: real, h: real)
    requires 0.0 < h && a * h == b * h
    ensures a == b
  {
    assert (a - b) * h == 0.0;
  }

  lemma SquareRootUnique(t: real, a: real)
    requires 0.0 < t && 0.0 < a && t * t == a * a
    ensures t == a
  {
    assert (t - a) * (t + a) == 0.0;
  }

  /** More cloud never lets more shortwave through. */
  lemma ShortwaveDecreasesWithCloud(c1: real, c2: real, ic: real)
    requires Abs(c1) <= Abs(c2) && 0.0 <= ic
    ensures ShortwaveFromCloud(c2, ic) <= ShortwaveFromCloud(c1, ic)
  {
    SquareOrder(c1, c2);
    ProductNonNegative(0.65 * (c2 * c2 - c1 * c1) / 100.0, ic);
  }

  lemma SquareOrder(c1: real, c2: real)
    requires Abs(c1) <= Abs(c2)
    ensures c1 * c1 <= c2 * c2
  {
    var a, b := Abs(c1), Abs(c2);
    assert c1 * c1 == a * a && c2 * c2 == b * b;
    ProductNonNegative(b - a, b + a);
  }

  /** More cloud never lowers the incoming longwave, as long as the clear-sky
      emissivity term is non-negative (vapour pressure above -15.1 kPa). */
  lemma LongwaveIncreasesWithCloud(k: Constants, c1: real, c2: real, vp: real, airTemp: real)
    requires ValidConstants(k) && Abs(c1) <= Abs(c2) && 0.0 <= 0.740 + 0.0049 * vp * 10.0
    ensures Longwave(k, c1, vp, airTemp) <= Longwave(k, c2, vp, airTemp)
  {
    SquareOrder(c1, c2);
    var x := airTemp + k.kelvin;
    var f := (0.740 + 0.0049 * vp * 10.0) * k.stefanB * Fourth(x) / k.lwaveCor;
    assert Fourth(x) == (x * x) * (x * x);
    ProductNonNegative(x * x, x * x);
    ProductNonNegative(0.740 + 0.0049 * vp * 10.0, k.stefanB);
    ProductNonNegative((0.740 + 0.0049 * vp * 10.0) * k.stefanB, Fourth(x));
    assert 0.0 <= f;
    assert Longwave(k, c1, vp, airTemp) == (1.0 + 0.17 * c1 * c1) * f;
    assert Longwave(k, c2, vp, airTemp) == (1.0 + 0.17 * c2 * c2) * f;
    ProductNonNegative(0.17 * (c2 * c2 - c1 * c1), f);
  }

  /** g repeats itself after p. */
  ghost predicate Periodic(g: real -> real, p: real) {
    forall a :: g(a + p) == g(a)
  }

  /** One more turn of the hour angle leaves the solar altitude unchanged. */
  lemma SinAltitudeTurn(lib: MathLib, k: Constants, w: Forcing, tau: real)
    requires Periodic(lib.cos, 2.0 * k.pi)
    ensures SinAltitude(lib, k, w, tau + 360.0) == SinAltitude(lib, k, w, tau)
  {
    var a := tau * k.pi / 180.0;
    assert (tau + 360.0) * k.pi / 180.0 == a + 2.0 * k.pi;
    assert lib.cos(a + 2.0 * k.pi) == lib.cos(a);
  }

  /** The source's two tau formulas differ by one turn, so with a cosine of
      period 2 PI the solar altitude does not depend on which one is taken. */
  lemma HourAngleBranchIrrelevant(lib: MathLib, k: Constants, w: Forcing, hour: real)
    requires Periodic(lib.cos, 2.0 * k.pi)
    ensures SinAltitude(lib, k, w, HourAngle(hour, w.thetaL, w.thetaS))
      == SinAltitude(lib, k, w, 15.0 * (hour - 12.0 - LongitudeCorrection(w.thetaL, w.thetaS)))
  {
    SinAltitudeTurn(lib, k, w, 15.0 * (hour - 12.0 - LongitudeCorrection(w.thetaL, w.thetaS)));
  }
}

=== FILE: real_arith.dfy ===
/** Small facts about real arithmetic shared by the other modules. */
module RealArith {
  function Abs(a: real): real { if a < 0.0 then -a else a }

  function Min(a: real, b: real): real { if a <= b then a else b }

  function Max(a: real, b: real): real { if a <= b then b else a }

  lemma ProductNonNegative(a: real, b: real)
    requires 0.0 <= a && 0.0 <= b
    ensures 0.0 <= a * b
  {
  }

  /** The product z of two positive numbers is positive; z is passed
      separately so that callers can name a square they have bound. */
  lemma PositiveProduct(x: real, y: real, z: real)
    requires 0.0 < x && 0.0 < y && z == x * y
    ensures 0.0 < z
  {
  }
}

=== FILE: results.dfy ===
/** Success/failure values shared by the forcing and snow models. */
module Results {

  /** Either a computed value or the reason the source would have stopped. */
  datatype Result<+T, +E> = Success(value: T) | Failure(error: E) {

    predicate IsFailure() {
      Failure?
    }

    function PropagateFailure<U>(): Result<U, E>
      requires Failure?
    {
      Failure(error)
    }

    function Extract(): T
      requires Success?
    {
      value
    }
  }
}

=== FILE: snow_melt.dfy ===
/** snow_melt: the mass and cold-content bookkeeping of the two-layer snow
    pack for one time step.  The surface energy balance and its root finder
    are not part of this model: their results arrive as an EnergyBalance. */
module SnowMelt {
  import opened Results
  import opened RealArith

  /** The vicNl.h constants the routine reads, and WaterDensity as a function of temperature. */
  datatype SnowParams = SnowParams(
    maxSurfaceSwe: real,
    chIce: real,
    lf: real,
    liquidWaterCapacity: real,
    secPerHour: real,
    waterDensity: real -> real)

  ghost predicate ValidParams(p: SnowParams) {
    && 0.0 < p.maxSurfaceSwe && 0.0 < p.chIce && 0.0 < p.lf
    && 0.0 < p.liquidWaterCapacity && 0.0 < p.secPerHour
    && forall t :: 0.0 < p.waterDensity(t)
  }

  /** The fields of the snow record the routine reads and writes. */
  datatype SnowState = SnowState(swq: real, packWater: real, surfWater: real, packTemp: real, surfTemp: real)

  /** What the energy-balance calls report: at a surface temperature of 0 C the
      net exchange Qnet, the refreeze energy and the vapour mass flux; and, for
      the case Qnet != 0, the root-finder's surface temperature with the vapour
      flux at that temperature. */
  datatype EnergyBalance = EnergyBalance(
    qnet: real, refreezeEnergy: real, vaporFlux: real,
    surfTemp: real, vaporFluxAtSurfTemp: real)

  /** The root finder's failure value (at or below -9998), which ends the program. */
  datatype SnowError = EnergyBalanceFailure

  /** The routine's results: the updated snow record, the vapour flux as
      reported (sign flipped), the mass-balance error, the surface-layer cold
      content, and the outflow in mm. */
  datatype SnowResult = SnowResult(snow: SnowState, vaporFlux: real, massError: real, coldContent: real, melt: real)

  /** The routine's working variables: ice content, the two layers' snow water
      equivalent and cold content, liquid water and temperatures. */
  datatype Layers = Layers(
    ice: real,
    surfaceSwq: real, packSwq: real,
    surfaceCC: real, packCC: real,
    surfWater: real, packWater: real,
    surfTemp: real, packTemp: real)

  /** Ice is the sum of the two layers' snow water equivalent. */
  predicate Consistent(w: Layers) {
    w.ice == w.surfaceSwq + w.packSwq
  }

  /** Total water equivalent: ice plus liquid water in both layers. */
  function Mass(w: Layers): real {
    w.ice + w.surfWater + w.packWater
  }

  /** Split the ice of the incoming record: the surface layer takes up to
      MAX_SURFACE_SWE, the pack the rest; cold contents from the temperatures. */
  function Reconstruct(p: SnowParams, s: SnowState): (w: Layers)
    ensures Consistent(w) && Mass(w) == s.swq
    ensures w.surfaceSwq == Min(w.ice, p.maxSurfaceSwe)
    ensures w.packSwq == 0.0 <==> w.ice <= p.maxSurfaceSwe
    ensures w.surfWater == s.surfWater && w.packWater == s.packWater
    ensures w.surfTemp == s.surfTemp && w.packTemp == s.packTemp
  {
    var ice := s.swq - s.packWater - s.surfWater;
    var surface := if ice > p.maxSurfaceSwe then p.maxSurfaceSwe else ice;
    var pack := ice - surface;
    Layers(ice, surface, pack,
      p.chIce * surface * s.surfTemp, p.chIce * pack * s.packTemp,
      s.surfWater, s.packWater, s.surfTemp, s.packTemp)
  }

  /** Cold content of the new snow: it arrives at the air temperature, or at
      0 C when the air is above freezing; never positive for real snowfall. */
  function SnowFallColdContent(p: SnowParams, snowFall: real, airTemp: real): (cc: real)
    requires ValidParams(p)
    ensures airTemp > 0.0 ==> cc == 0.0
    ensures 0.0 <= snowFall ==> cc <= 0.0
    ensures snowFall == 0.0 ==> cc == 0.0
    ensures 0.0 < snowFall ==> Temperature(p, cc, snowFall) == Min(airTemp, 0.0)
  {
    if airTemp > 0.0 then 0.0
    else
      NonPositiveProduct(p.chIce * snowFall, airTemp);
      var cc := p.chIce * snowFall * airTemp;
      if 0.0 < snowFall then
        TemperatureOfProduct(p, snowFall, airTemp, cc);
        cc
      else
        cc
  }

  /** A layer of swq > 0 whose cold content is CH_ICE * swq * t has temperature t. */
  lemma TemperatureOfProduct(p: SnowParams, swq: real, t: real, cc: real)
    requires ValidParams(p) && 0.0 < swq && cc == p.chIce * swq * t
    ensures Temperature(p, cc, swq) == t
  {
    var m := p.chIce * swq;
    PositiveProduct(p.chIce, swq, m);
    assert Temperature(p, cc, swq) * m == t * m;
  }

  lemma NonPositiveProduct(a: real, b: real)
    requires b <= 0.0
    ensures 0.0 <= a ==> a * b <= 0.0
  {
  }

  /** Fresh snow fills the surface layer up to MAX_SURFACE_SWE; the overflow
      and a proportional share of cold content move to the pack. */
  function DistributeSnowfall(p: SnowParams, w: Layers, snowFall: real, snowFallCC: real): (w': Layers)
    requires w.surfaceSwq <= p.maxSurfaceSwe
    ensures w'.surfaceSwq + w'.packSwq == w.surfaceSwq + w.packSwq + snowFall
    ensures w'.surfaceCC + w'.packCC == w.surfaceCC + w.packCC + snowFallCC
    ensures w'.surfaceSwq <= p.maxSurfaceSwe
    ensures snowFall > p.maxSurfaceSwe - w.surfaceSwq ==> w'.surfaceSwq == p.maxSurfaceSwe
    ensures snowFall <= p.maxSurfaceSwe - w.surfaceSwq ==> w'.packSwq == w.packSwq && w'.packCC == w.packCC
    ensures w' == w.(surfaceSwq := w'.surfaceSwq, packSwq := w'.packSwq, surfaceCC := w'.surfaceCC, packCC := w'.packCC)
  {
    if snowFall > p.maxSurfaceSwe - w.surfaceSwq then
      var deltaPackSwq := w.surfaceSwq + snowFall - p.maxSurfaceSwe;
      DistributionDivisors(p, w.surfaceSwq, snowFall);
      var deltaPackCC :=
        if deltaPackSwq > w.surfaceSwq then
          w.surfaceCC + (snowFall - p.maxSurfaceSwe) / snowFall * snowFallCC
        else
          deltaPackSwq / w.surfaceSwq * w.surfaceCC;
      w.(surfaceSwq := p.maxSurfaceSwe,
         surfaceCC := w.surfaceCC + snowFallCC - deltaPackCC,
         packSwq := w.packSwq + deltaPackSwq,
         packCC := w.packCC + deltaPackCC)
    else
      w.(surfaceSwq := w.surfaceSwq + snowFall, surfaceCC := w.surfaceCC + snowFallCC)
  }

  /** The two divisions of the overflow branch never divide by zero: the
      snowfall exceeds the surface layer's free room, and the surface layer is
      non-empty whenever the overflow is no larger than it. */
  lemma DistributionDivisors(p: SnowParams, surfaceSwq: real, snowFall: real)
    requires surfaceSwq <= p.maxSurfaceSwe && snowFall > p.maxSurfaceSwe - surfaceSwq
    ensures 0.0 < snowFall
    ensures surfaceSwq + snowFall - p.maxSurfaceSwe <= surfaceSwq ==> 0.0 < surfaceSwq
  {
  }

  /** A layer's temperature from its cold content; 0 for an empty layer. */
  function Temperature(p: SnowParams, cc: real, swq: real): (t: real)
    requires ValidParams(p)
    ensures 0.0 < swq ==> t * (p.chIce * swq) == cc
    ensures swq <= 0.0 ==> t == 0.0
  {
    if swq > 0.0 then
      PositiveProduct(p.chIce, swq, p.chIce * swq);
      cc / (p.chIce * swq)
    else 0.0
  }

  /** Seconds in a time step of deltaT hours. */
  function StepSeconds(p: SnowParams, deltaT: real): (s: real)
    requires ValidParams(p) && 0.0 < deltaT
    ensures 0.0 < s
  {
    PositiveProduct(deltaT, p.secPerHour, deltaT * p.secPerHour);
    deltaT * p.secPerHour
  }

  /** Latent heat of fusion per unit depth of water at temperature t. */
  function LatentHeat(p: SnowParams, t: real): (l: real)
    requires ValidParams(p)
    ensures 0.0 < l
  {
    PositiveProduct(p.lf, p.waterDensity(t), p.lf * p.waterDensity(t));
    p.lf * p.waterDensity(t)
  }

  /** Qnet == 0 with refreeze energy available: surface liquid water refreezes,
      but never more than there is. */
  function RefreezeSurfaceWater(p: SnowParams, w: Layers, refreezeEnergy: real, deltaT: real): (w': Layers)
    requires ValidParams(p) && 0.0 < deltaT && 0.0 <= refreezeEnergy && Consistent(w)
    ensures Consistent(w') && Mass(w') == Mass(w)
    ensures 0.0 <= w'.surfWater
    ensures 0.0 <= w.surfWater ==> w'.surfWater <= w.surfWater
    ensures w'.surfaceSwq - w.surfaceSwq <= refreezeEnergy / LatentHeat(p, 0.0) * StepSeconds(p, deltaT)
    ensures w'.surfWater == 0.0 || w'.surfaceSwq - w.surfaceSwq == refreezeEnergy / LatentHeat(p, 0.0) * StepSeconds(p, deltaT)
    ensures w' == w.(ice := w'.ice, surfaceSwq := w'.surfaceSwq, surfWater := w'.surfWater)
  {
    var possible := refreezeEnergy / LatentHeat(p, 0.0) * StepSeconds(p, deltaT);
    var refrozen := if possible > w.surfWater then w.surfWater else possible;
    w.(surfaceSwq := w.surfaceSwq + refrozen, ice := w.ice + refrozen, surfWater := w.surfWater - refrozen)
  }

  /** Qnet == 0 with a negative refreeze energy: the depth of snow that energy melts. */
  function SnowMeltDepth(p: SnowParams, refreezeEnergy: real, deltaT: real): (melt: real)
    requires ValidParams(p) && 0.0 < deltaT
    ensures 0.0 <= melt
    ensures melt * LatentHeat(p, 0.0) == (if refreezeEnergy < 0.0 then -refreezeEnergy else refreezeEnergy) * StepSeconds(p, deltaT)
  {
    var e := if refreezeEnergy < 0.0 then -refreezeEnergy else refreezeEnergy;
    var l, s := LatentHeat(p, 0.0), StepSeconds(p, deltaT);
    QuotientScaled(e, l, s);
    e / l * s
  }

  lemma QuotientScaled(e: real, l: real, s: real)
    requires 0.0 <= e && 0.0 < l && 0.0 < s
    ensures 0.0 <= e / l * s
    ensures e / l * s * l == e * s
  {
    var q := e / l;
    assert q * l == e;
    PositiveProduct(l, s, l * s);
    assert 0.0 <= q;
    assert q * s * l == q * l * s;
  }

  /** Vapour exchange with the surface liquid water: condensation adds to it,
      evaporation takes from it but never below zero, the flux being cut back
      to what was there. */
  function SurfaceWaterVapour(w: Layers, flux: real): (r: (Layers, real))
    ensures r.0.surfWater == w.surfWater + r.1
    ensures 0.0 <= r.0.surfWater
    ensures r.1 == flux || (r.1 == -w.surfWater && flux < r.1)
    ensures r.1 != flux <==> w.surfWater < -flux
    ensures r.1 != flux ==> r.0.surfWater == 0.0
    ensures r.0 == w.(surfWater := r.0.surfWater)
  {
    if w.surfWater < -flux then (w.(surfWater := 0.0), -w.surfWater)
    else (w.(surfWater := w.surfWater + flux), flux)
  }

  /** Melt turns ice into surface liquid water: from the pack first; past the
      pack's ice the pack's liquid water joins the surface; at most all of the ice. */
  function DistributeMelt(w: Layers, melt: real): (w': Layers)
    requires Consistent(w)
    ensures Consistent(w') && Mass(w') == Mass(w)
    ensures 0.0 <= w'.ice
    ensures melt < w.ice ==> w'.ice == w.ice - melt
    ensures melt < w.ice && melt <= w.packSwq ==>
      && w'.surfWater == w.surfWater + melt && w'.packWater == w.packWater
      && w'.surfaceSwq == w.surfaceSwq && w'.packSwq == w.packSwq - melt
    ensures melt < w.ice && w.packSwq < melt ==>
      && w'.surfWater == w.surfWater + melt + w.packWater && w'.packWater == 0.0
      && w'.packSwq == 0.0
    ensures melt < w.ice ==> w'.surfTemp == w.surfTemp && w'.packTemp == w.packTemp
    ensures w.ice <= melt ==> w'.ice == 0.0 && w'.surfaceSwq == 0.0 && w'.packSwq == 0.0
    ensures w.ice <= melt ==>
      && w'.surfWater == w.surfWater + w.ice && w'.packWater == w.packWater
      && w'.surfTemp == 0.0 && w'.packTemp == 0.0
    ensures w'.surfaceCC == w.surfaceCC && w'.packCC == w.packCC
  {
    if melt < w.ice then
      if melt <= w.packSwq then
        w.(surfWater := w.surfWater + melt, packSwq := w.packSwq - melt, ice := w.ice - melt)
      else
        var ice := w.ice - melt;
        w.(surfWater := w.surfWater + melt + w.packWater, packWater := 0.0, packSwq := 0.0,
           ice := ice, surfaceSwq := ice)
    else
      w.(surfWater := w.surfWater + w.ice, surfaceSwq := 0.0, surfTemp := 0.0,
         packSwq := 0.0, packTemp := 0.0, ice := 0.0)
  }

  /** The branch Qnet == 0: the surface sits at 0 C; refreeze or melt, then vapour exchange. */
  function MeltingSurface(p: SnowParams, w: Layers, eb: EnergyBalance, deltaT: real): (r: (Layers, real))
    requires ValidParams(p) && 0.0 < deltaT && Consistent(w)
    ensures Consistent(r.0) && Mass(r.0) == Mass(w) + r.1
    ensures eb.vaporFlux * StepSeconds(p, deltaT) <= r.1
  {
    var w0 := w.(surfTemp := 0.0);
    var refrozen := if eb.refreezeEnergy >= 0.0 then RefreezeSurfaceWater(p, w0, eb.refreezeEnergy, deltaT) else w0;
    var melt := if eb.refreezeEnergy >= 0.0 then 0.0 else SnowMeltDepth(p, eb.refreezeEnergy, deltaT);
    var v := SurfaceWaterVapour(refrozen, eb.vaporFlux * StepSeconds(p, deltaT));
    (DistributeMelt(v.0, melt), v.1)
  }

  /** Vapour exchange with the surface layer's ice in the below-freezing case:
      sublimation takes from the surface layer but never below zero. */
  function SurfaceIceVapour(w: Layers, flux: real): (r: (Layers, real))
    requires Consistent(w)
    ensures Consistent(r.0) && r.0.ice == w.ice + r.1
    ensures r.1 == flux || (r.1 == -w.surfaceSwq && flux < r.1)
    ensures r.1 != flux <==> w.surfaceSwq < -flux
    ensures r.1 != flux ==> r.0.surfaceSwq == 0.0
    ensures 0.0 <= r.0.surfaceSwq
    ensures r.0.surfaceSwq == w.surfaceSwq + r.1
    ensures r.0 == w.(surfaceSwq := r.0.surfaceSwq, ice := r.0.ice)
  {
    if w.surfaceSwq < -flux then (w.(surfaceSwq := 0.0, ice := w.packSwq), -w.surfaceSwq)
    else (w.(surfaceSwq := w.surfaceSwq + flux, ice := w.ice + flux), flux)
  }

  /** The branch Qnet != 0: the surface takes the root finder's temperature, all
      surface liquid water freezes, then vapour exchange with the surface ice. */
  function FreezingSurface(p: SnowParams, w: Layers, eb: EnergyBalance, deltaT: real): (r: Result<(Layers, real), SnowError>)
    requires ValidParams(p) && 0.0 < deltaT && Consistent(w)
    ensures r.Failure? <==> eb.surfTemp <= -9998.0
    ensures r.Success? ==> Consistent(r.value.0) && Mass(r.value.0) == Mass(w) + r.value.1
    ensures r.Success? ==> r.value.0.surfWater == 0.0 && r.value.0.surfTemp == eb.surfTemp
  {
    if eb.surfTemp <= -9998.0 then Failure(EnergyBalanceFailure)
    else
      var frozen := w.(surfTemp := eb.surfTemp, surfaceSwq := w.surfaceSwq + w.surfWater,
                       ice := w.ice + w.surfWater, surfWater := 0.0);
      Success(SurfaceIceVapour(frozen, eb.vaporFluxAtSurfTemp * StepSeconds(p, deltaT)))
  }

  /** Liquid water above the holding capacity drains away. */
  function Spill(water: real, capacity: real): (r: (real, real))
    ensures r.0 <= capacity && 0.0 <= r.1 && r.0 + r.1 == water
    ensures water <= capacity ==> r == (water, 0.0)
    ensures capacity < water ==> r.0 == capacity
  {
    if water > capacity then (capacity, water - capacity) else (water, 0.0)
  }

  /** Liquid water in the pack refreezes against the pack's cold content: all of
      it while the cold content lasts, otherwise just enough to bring the pack to 0 C. */
  function RefreezePack(p: SnowParams, w: Layers): (w': Layers)
    requires ValidParams(p) && Consistent(w)
    ensures Consistent(w') && Mass(w') == Mass(w)
    ensures w'.packWater == 0.0 || w'.packTemp == 0.0
    ensures var re := w.packWater * LatentHeat(p, w.packTemp);
      w.packCC < -re ==>
        && w'.packWater == 0.0
        && (0.0 < w'.packSwq ==> w'.packTemp * (p.chIce * w'.packSwq) == w.packCC + re)
        && (w'.packSwq <= 0.0 ==> w'.packTemp == 0.0)
    ensures var re := w.packWater * LatentHeat(p, w.packTemp);
      -re <= w.packCC ==>
        && w'.packTemp == 0.0
        && (w'.packSwq - w.packSwq) * LatentHeat(p, 0.0) == -w.packCC
    ensures w' == w.(packSwq := w'.packSwq, ice := w'.ice, packWater := w'.packWater, packTemp := w'.packTemp)
  {
    var refreezeEnergy := w.packWater * LatentHeat(p, w.packTemp);
    if w.packCC < -refreezeEnergy then
      var pack := w.packSwq + w.packWater;
      w.(packSwq := pack, ice := w.ice + w.packWater, packWater := 0.0,
         packTemp := Temperature(p, w.packCC + refreezeEnergy, pack))
    else
      var delta := -w.packCC / LatentHeat(p, 0.0);
      w.(packTemp := 0.0, packWater := w.packWater - delta, packSwq := w.packSwq + delta, ice := w.ice + delta)
  }

  /** The final layer split: with more ice than MAX_SURFACE_SWE the surface
      layer is set to exactly MAX_SURFACE_SWE by moving snow and cold content
      across; otherwise the pack is emptied.  The order at snow_melt.c:404-405
      is kept: the pack's cold content is reduced before the surface's share is
      computed from it. */
  function Rebalance(p: SnowParams, w: Layers): (w': Layers)
    requires ValidParams(p) && Consistent(w)
    ensures w'.ice == w.ice && w'.surfWater == w.surfWater && w'.packWater == w.packWater
    ensures w.ice > p.maxSurfaceSwe ==>
      && Consistent(w')
      && w'.surfaceSwq == p.maxSurfaceSwe
      && 0.0 < w'.packSwq
      && w'.packTemp * (p.chIce * w'.packSwq) == w'.packCC
      && w'.surfTemp * (p.chIce * w'.surfaceSwq) == w'.surfaceCC
    ensures w.ice <= p.maxSurfaceSwe ==>
      w' == w.(packSwq := 0.0, packCC := 0.0, packTemp := 0.0)
  {
    var ice := w.packSwq + w.surfaceSwq;
    var max := p.maxSurfaceSwe;
    if ice > max then
      var surfaceCC := p.chIce * w.surfTemp * w.surfaceSwq;
      var packCC := p.chIce * w.packTemp * w.packSwq;
      var moved := ShiftLayers(max, w.surfaceSwq, w.packSwq, surfaceCC, packCC);
      var surface, pack := moved.0, moved.1;
      w.(surfaceSwq := surface, packSwq := pack, surfaceCC := moved.2, packCC := moved.3,
         packTemp := Temperature(p, moved.3, pack), surfTemp := Temperature(p, moved.2, surface))
    else
      w.(packSwq := 0.0, packCC := 0.0, packTemp := 0.0)
  }

  /** The transfer between the layers when there is more ice than
      MAX_SURFACE_SWE: snow water equivalent and cold content of the two layers
      after the surface layer is brought to max. */
  function ShiftLayers(max: real, surface: real, pack: real, surfaceCC: real, packCC: real)
    : (r: (real, real, real, real))
    requires 0.0 < max && surface + pack > max
    ensures r.0 == max && r.0 + r.1 == surface + pack && 0.0 < r.1
    ensures surface == max ==> r == (surface, pack, surfaceCC, packCC)
    ensures surface > max ==> r.2 + r.3 == surfaceCC + packCC
  {
    if surface > max then
      var share := surfaceCC * (surface - max) / surface;
      (surface - (surface - max), pack + (surface - max), surfaceCC - share, packCC + share)
    else if surface < max then
      var packCC' := packCC - packCC * (max - surface) / pack;
      (surface + (max - surface), pack - (max - surface), surfaceCC + packCC' * (max - surface) / pack, packCC')
    else
      (surface, pack, surfaceCC, packCC)
  }

  /** The cost of the order at snow_melt.c:404-405: when the surface layer is
      topped up from the pack, the total cold content changes by exactly
      -packCC * f^2, where f is the fraction of the pack moved.  It is conserved
      only when the pack has no cold content. */
  lemma ShiftColdContentDefect(max: real, surface: real, pack: real, surfaceCC: real, packCC: real)
    requires 0.0 < max && surface + pack > max && surface < max
    ensures var r := ShiftLayers(max, surface, pack, surfaceCC, packCC);
      var f := (max - surface) / pack;
      r.2 + r.3 == surfaceCC + packCC - packCC * f * f
  {
    var f := (max - surface) / pack;
    var packCC' := packCC - packCC * (max - surface) / pack;
    assert packCC * (max - surface) / pack == packCC * f;
    assert packCC' * (max - surface) / pack == packCC' * f;
    assert packCC' == packCC - packCC * f;
    assert (packCC - packCC * f) * f == packCC * f - packCC * f * f;
  }

  /** The top-up that conserves cold content: the surface receives the share
      the pack gives up. */
  function ShiftLayersConserving(max: real, surface: real, pack: real, surfaceCC: real, packCC: real)
    : (r: (real, real, real, real))
    requires 0.0 < max && surface + pack > max
    ensures r.0 == max && r.0 + r.1 == surface + pack
    ensures r.2 + r.3 == surfaceCC + packCC
  {
    if surface > max then
      var share := surfaceCC * (surface - max) / surface;
      (max, pack + (surface - max), surfaceCC - share, packCC + share)
    else if surface < max then
      var share := packCC * (max - surface) / pack;
      (max, pack - (max - surface), surfaceCC + share, packCC - share)
    else
      (surface, pack, surfaceCC, packCC)
  }

  /** The two agree exactly when the pack has no cold content to move or
      nothing is moved from it. */
  lemma ShiftAgreesWithConserving(max: real, surface: real, pack: real, surfaceCC: real, packCC: real)
    requires 0.0 < max && surface + pack > max && surface < max
    ensures ShiftLayers(max, surface, pack, surfaceCC, packCC) == ShiftLayersConserving(max, surface, pack, surfaceCC, packCC)
      <==> packCC == 0.0
  {
    ShiftColdContentDefect(max, surface, pack, surfaceCC, packCC);
    var f := (max - surface) / pack;
    PositiveQuotient(max - surface, pack, f);
    var f2 := f * f;
    PositiveProduct(f, f, f2);
    if packCC != 0.0 {
      NonZeroProduct(packCC, f2);
      assert packCC * f * f == packCC * f2;
    }
  }

  lemma PositiveQuotient(a: real, b: real, q: real)
    requires 0.0 < a && 0.0 < b && q == a / b
    ensures 0.0 < q
  {
  }

  lemma NonZeroProduct(a: real, b: real)
    requires a != 0.0 && 0.0 < b
    ensures a * b != 0.0
  {
  }

  /** One call of snow_melt.  Snowfall and rainfall arrive in mm, deltaT in hours. */
  function SnowMeltStep(p: SnowParams, s: SnowState, eb: EnergyBalance,
                        rainfall: real, snowfall: real, airTemp: real, deltaT: real)
    : (r: Result<SnowResult, SnowError>)
    requires ValidParams(p) && 0.0 < deltaT
    ensures r.Failure? <==> eb.qnet != 0.0 && eb.surfTemp <= -9998.0
    ensures r.Success? ==> r.value.massError == 0.0
    ensures r.Success? ==> r.value.snow.swq == s.swq + (snowfall + rainfall) / 1000.0 - r.value.vaporFlux - r.value.melt / 1000.0
    ensures r.Success? ==> 0.0 <= r.value.melt
    ensures r.Success? && r.value.snow.swq == 0.0 ==> r.value.snow.surfTemp == 0.0 && r.value.snow.packTemp == 0.0
  {
    var snowFall := snowfall / 1000.0;
    var rainFall := rainfall / 1000.0;
    var w0 := Reconstruct(p, s);
    var snowFallCC := SnowFallColdContent(p, snowFall, airTemp);
    var w1 := DistributeSnowfall(p, w0, snowFall, snowFallCC);
    var w2 := w1.(surfTemp := Temperature(p, w1.surfaceCC, w1.surfaceSwq),
                  packTemp := Temperature(p, w1.packCC, w1.packSwq),
                  ice := w1.ice + snowFall,
                  surfWater := w1.surfWater + rainFall);
    assert Consistent(w2) && Mass(w2) == s.swq + snowFall + rainFall;
    var surface :-
      if eb.qnet == 0.0 then Success(MeltingSurface(p, w2, eb, deltaT))
      else FreezingSurface(p, w2, eb, deltaT);
    Success(Finish(p, s.swq, surface.0, surface.1, snowFall + rainFall))
  }

  /** From the surface liquid-water overflow to the outputs (snow_melt.c:333-435). */
  function Finish(p: SnowParams, initialSwq: real, w: Layers, vapour: real, precipitation: real): (r: SnowResult)
    requires ValidParams(p) && Consistent(w)
    requires Mass(w) == initialSwq + precipitation + vapour
    ensures r.massError == 0.0
    ensures r.snow.swq == initialSwq + precipitation + vapour - r.melt / 1000.0
    ensures 0.0 <= r.melt
    ensures r.snow.swq == 0.0 ==> r.snow.surfTemp == 0.0 && r.snow.packTemp == 0.0
    ensures r.vaporFlux == -vapour
  {
    var surfaceSpill := Spill(w.surfWater, p.liquidWaterCapacity * w.surfaceSwq);
    var w4 := w.(surfWater := surfaceSpill.0, packWater := w.packWater + surfaceSpill.1);
    var w5 := RefreezePack(p, w4);
    var packSpill := Spill(w5.packWater, p.liquidWaterCapacity * w5.packSwq);
    var melt := packSpill.1;
    var w6 := w5.(packWater := packSpill.0);
    var w7 := Rebalance(p, w6.(ice := w6.packSwq + w6.surfaceSwq));
    var swq := w7.ice + w7.packWater + w7.surfWater;
    var zeroed := swq == 0.0;
    var snow := SnowState(swq, w7.packWater, w7.surfWater,
      if zeroed then 0.0 else w7.packTemp, if zeroed then 0.0 else w7.surfTemp);
    var massError := (initialSwq - swq) + precipitation - melt + vapour;
    SnowResult(snow, -vapour, massError, w7.surfaceCC, melt * 1000.0)
  }

  /** With more ice than MAX_SURFACE_SWE, the layers the routine leaves are the
      ones the next call reconstructs from the stored totals and temperatures:
      the same split and the same cold contents. */
  lemma RebalanceSurvivesNextCall(p: SnowParams, w: Layers)
    requires ValidParams(p) && Consistent(w) && w.ice > p.maxSurfaceSwe
    ensures var b := Rebalance(p, w);
      var next := Reconstruct(p, SnowState(b.ice + b.packWater + b.surfWater, b.packWater, b.surfWater, b.packTemp, b.surfTemp));
      next.surfaceSwq == b.surfaceSwq && next.packSwq == b.packSwq
      && next.surfaceCC == b.surfaceCC && next.packCC == b.packCC
  {
    var b := Rebalance(p, w);
    assert p.chIce * b.surfaceSwq * b.surfTemp == b.surfTemp * (p.chIce * b.surfaceSwq);
    assert p.chIce * b.packSwq * b.packTemp == b.packTemp * (p.chIce * b.packSwq);
  }
}
